=== FILE: README.md ===
# Savvy-Track price tracker, modelled in Dafny

This project models the core of a product price tracker for two Indian
retailers, amazon.in and flipkart.com. The core has three parts:

- **The product-page extractor** (`scrapeProduct`). A fixed retailer table
  maps an exact hostname to price, title and image selectors. The extractor
  reads the first price, title and image match of the fetched page. On
  amazon.in it also builds an ordered list of deal texts. Every failure
  surfaces as one generic error.
- **The `POST /api/products` handler.** It validates the request body,
  scrapes the page, and creates the product with the scraped values
  overriding the request's. It then records the first price-history row.
- **The storage layer** (`DatabaseStorage`) over the `products` and
  `price_history` tables. It covers create, get, list, update, delete,
  append history and read history sorted by time. The `deals` list is
  stored as JSON text.

The page is abstract: a sequence of elements in document order. Each
element has its class and id names, its ancestors' names, a text and
attributes. A selector is a set of locators. "First" means the first
element in document order that any locator matches. The database is a pair
of in-memory tables with their `serial` counters. Its integrity is the
predicate `Storage.Valid`:

- unique ids below the counter;
- 32-bit `integer` columns;
- the `price_history.product_id` foreign key.

Every storage operation and the handler keep `Valid`.

Outside influences are parameters:

- The page fetch and the URL's hostname are the two functions of a
  `Scraper.Web` record.
- The zod URL and e-mail grammars are the two predicates of a
  `Schema.Syntax` record.
- Each `new Date()` is a `Time` argument. The handler reads the clock
  twice, once for `lastChecked` and once for the history timestamp.

Three behaviours of the code shape the model:

- The retailer is found by using `new URL(url).hostname` as an exact key
  of the retailer table (server/routes.ts:31-32). The URL parser
  lower-cases the hostname, but it does not strip a `www.` or other
  subdomain, or a trailing dot. `Scraper.HostVariantsUnsupported` pins
  this down.
- Each successful `POST /api/products` creates a new product row and one
  history row, even for a URL that is already tracked. No code path
  re-scrapes or updates a tracked product's price.
- `deleteProduct` deletes the product row before its history rows
  (server/storage.ts:67-70), so the database refuses to delete any product
  that has history (see Findings).

Modules, in dependency order:

| module | file | contents |
|---|---|---|
| Wrappers | wrappers.dfy | `Option`, `Result` |
| Text | text.dfy | ECMAScript `trim`, the digit filter, `parseInt` of digits, `includes` |
| Json | json.dfy | `JSON.stringify` of a string array and `JSON.parse` back (RFC 8259, sections 2, 5 and 7) |
| Page | page.dfy | elements, locators, first match, `.each` scans |
| Schema | schema.dfy | table rows, int4 range, `insertProductSchema` validation |
| Scraper | scraper.dfy | retailer table, extraction, `scrapeProduct` |
| Storage | storage.dfy | the `DatabaseStorage` methods |
| Routes | routes.dfy | the `POST /api/products` handler |
| Scenario | scenario.dfy | worked pages and one request carried end to end |

## Model

| member | source | states |
|---|---|---|
| Text.Trim | server/routes.ts:39 | `trim` removes whitespace only, from both ends. The result neither starts nor ends with whitespace, and it is empty exactly when the input is all whitespace. |
| Text.TrimIdempotent | server/routes.ts:62 | Trimming a trimmed text changes nothing, so the deal scans push texts that are already trimmed. |
| Text.Digits | server/routes.ts:40 | `replace(/[^0-9]/g, '')` keeps only ASCII digits and is never longer than its input. |
| Text.DigitsOfChar | server/routes.ts:40 | On one character, the filter keeps a digit and drops anything else. With `DigitsAppend` this fixes the filter on every string. |
| Text.DigitsKeepsDigits | server/routes.ts:40 | A character is in the filtered text exactly when it is a digit of the input. |
| Text.DigitsAppend | server/routes.ts:40 | The digit filter works character by character: filtering a concatenation concatenates the filtered parts. |
| Text.DigitsIgnoreTrim | server/routes.ts:39-40 | Trimming before filtering digits does not change the digits, because whitespace is never a digit. |
| Text.DecimalValue | server/routes.ts:40 | `parseInt` of a digit string is below 10 to the power of its length. Without a leading '0', it is at least 10 to the power of its length minus one. |
| Text.DecimalValueZero | server/routes.ts:40-43 | A digit string reads as 0, and so fails the `!price` check, exactly when all its digits are '0'. |
| Text.DecimalValueLeadingZero | server/routes.ts:40 | A leading '0' does not change the value: `parseInt` of the filtered digits is decimal. |
| Text.Contains | server/routes.ts:75 | `includes` finds every word that occurs at the start of the text, and always finds the empty word. A contained word is never longer than the text. |
| Text.MissingFirstCharNotContained | server/routes.ts:75 | `includes` is case-sensitive: a word whose first character is absent from the text is not contained in it. |
| Page.FirstMatch | server/routes.ts:39 | `.first()` picks the earliest element matching any selector of the list. It is absent exactly when nothing matches. |
| Page.FirstMatchUnique | server/routes.ts:39 | There is only one first match. |
| Page.FirstText | server/routes.ts:46 | `.first().text()` is the first match's text, or the empty string when nothing matches. |
| Page.FirstTextTrimmed | server/routes.ts:67 | The trimmed text of the first match is non-empty exactly when a first match exists and its text is not all whitespace. It is then that element's trimmed text. |
| Page.FirstAttr | server/routes.ts:52 | `.first().attr('src')` exists exactly when the first match has that attribute, and then it is that attribute's value. |
| Page.Collect | server/routes.ts:61-64 | An `.each` scan yields only trimmed texts that the filter keeps. A text is yielded exactly when some matching element has it. |
| Page.CollectAppend | server/routes.ts:73-76 | A scan keeps document order and duplicates: scanning two parts of a page concatenates their results. |
| Page.CollectNoMatch | server/routes.ts:79-82 | A scan finds nothing on a page where its locator matches no element. |
| Page.CollectSingle | server/routes.ts:73-76 | A one-element scan yields the trimmed text exactly when the element matches and the filter keeps the text. |
| Scraper.Lookup | server/routes.ts:8-19 | Only the exact hostnames `amazon.in` and `flipkart.com` have rulesets. |
| Scraper.HostVariantsUnsupported | server/routes.ts:31-36 | `www.amazon.in`, `m.amazon.in`, the trailing-dot form `amazon.in.` and a lookalike suffix domain fail as an unsupported retailer. |
| Scraper.PriceFromText | server/routes.ts:39-43 | A price is accepted exactly when the text has a non-zero digit. It is then positive and equals the decimal value of all the text's digits. |
| Scraper.PriceOfDigits | server/routes.ts:40 | A text whose digits do not start with '0' reads as the value of those digits. |
| Scraper.RupeePriceExample | server/routes.ts:39-40 | "₹18,999" reads as 18999. |
| Scraper.DecimalPointExample | server/routes.ts:39-40 | "₹15,499.00" reads as 1549900, because the decimal point is dropped with the other non-digits. |
| Scraper.SavingsBadge | server/routes.ts:67-70 | The savings scan contributes at most one entry, and it is non-empty and trimmed. It contributes one exactly when a first `.savingsPercentage` exists and its text is not all whitespace. The entry is then that element's trimmed text. |
| Scraper.AmazonDeals | server/routes.ts:57-83 | A text is an amazon.in deal exactly when one of the four scans yields it: a non-empty deal badge, the savings entry, a boxed badge mentioning "deal", or a non-empty promotion message. |
| Scraper.AmazonDealsWellFormed | server/routes.ts:57-83 | Every amazon.in deal is non-empty and trimmed. |
| Scraper.BoxedBadgesMentionDeal | server/routes.ts:73-76 | Every boxed badge kept as a deal contains "deal", case-sensitively. |
| Scraper.Extract | server/routes.ts:31-83 | A successful extraction has a ruleset, a positive price, and a non-empty title and image. It has no deals off amazon.in. It fails as an unsupported retailer exactly when the hostname has no ruleset. |
| Scraper.ExtractSucceeds | server/routes.ts:38-86 | With a ruleset, a readable first price, a non-blank first title and a non-empty first `src`, extraction returns exactly those values. Deals come from the amazon.in scans, or none elsewhere. |
| Scraper.ExtractReadsFirstMatches | server/routes.ts:38-86 | The converse of `ExtractSucceeds`: a successful result's price, title, image and deals are exactly those read from the first matches and the scans. |
| Scraper.ExtractFailures | server/routes.ts:41-55 | Each error has its exact condition, in the order the checks run: price, then title, then image (missing or empty `src`). |
| Scraper.MissingPriceFails | server/routes.ts:39-43 | A page with no price match fails on the price. |
| Scraper.ScrapeHidesExtractionErrors | server/routes.ts:34-90 | An extraction error on a fetched page surfaces as the generic failure. No failure carries the unsupported-retailer, price, title or image message. |
| Scraper.Scrape | server/routes.ts:21-90 | Every failure, fetch or extraction, carries the one generic message. Scraping succeeds exactly when the fetch and the extraction both do, with the extraction's facts. |
| Scenario.FlipkartExample | server/routes.ts:38-55 | A Flipkart page yields the first matches' price, title and image, and no deals. |
| Scenario.BoxedBadges | server/routes.ts:73-76 | Of the badges "Deal of the Day" and "Top deal", only "Top deal" is kept, because the match is case-sensitive. |
| Scenario.AmazonDealsExample | server/routes.ts:57-83 | On the example amazon.in page, the four scans together yield `["Top deal"]`. |
| Scenario.AmazonExample | server/routes.ts:31-86 | The example amazon.in page extracts to title, price, image and the deal list. |
| Json.Stringify | server/storage.ts:42 | The stored text opens with '[' and closes with ']', and it is `[]` exactly for the empty list. `StringifyRoundTrip` is its inverse. |
| Json.ParseStringArray | client/src/components/product-card.tsx:69 | `JSON.parse` accepts only text whose first non-space character opens an array. It returns the empty list only when the next non-space character closes that array. |
| Json.QuoteRoundTrip | server/storage.ts:42 | `JSON.parse` reads a string literal written by `JSON.stringify` back to the same string, escapes included, and stops right after its closing quote. |
| Json.ItemsRoundTrip | server/storage.ts:42 | The comma-separated literals of a non-empty array parse back to the same list, in order, up to the closing bracket. |
| Json.StringifyRoundTrip | client/src/components/product-card.tsx:69-73 | Parsing the stored deals text gives back the stored list exactly, in order, the empty list included. |
| Json.StringifyInjective | server/storage.ts:42 | Different deal lists are stored as different texts. |
| Schema.Accepts | shared/schema.ts:26-32 | A not-null column passes only when the body supplies a value of its type. Title, price and image pass exactly when supplied. `deals` passes exactly when it is not mistyped, so absent and null pass. |
| Schema.Issues | shared/schema.ts:26-32 | The reported issues are exactly the checked columns whose rule the body breaks. |
| Schema.EveryColumnChecked | shared/schema.ts:26-27 | The insert schema checks every column a request can name. That `id` and `lastChecked` are not among them follows from the `Column` type, which omits them, not from this lemma. |
| Schema.ValidateInsert | shared/schema.ts:26-32 | A body is accepted exactly when every column passes its rule. On acceptance, url and email are well-formed, the threshold is at least 0, and the values are the body's. On rejection, the issues are exactly the failing columns. |
| Schema.NegativeThresholdRejected | shared/schema.ts:31 | A negative threshold is rejected and named among the issues. |
| Schema.ZeroThresholdAccepted | shared/schema.ts:31 | A threshold of 0 is never an issue. |
| Schema.ValidateTrack | client/src/components/track-form.tsx:26-40 | Corrected validation checks only url, email and threshold. Success and issues follow the same rules as the insert schema. |
| Schema.InsertAcceptsOnlyTrackRequests | shared/schema.ts:26-32 | Every body the insert schema accepts passes the corrected validation with the same values. When only the insert schema fails, it fails on title, price, image or deals. |
| Schema.FormBodyFailsInsert | client/src/components/track-form.tsx:26-40 | A body with only the form's fields (url, email and threshold) fails the insert schema on exactly title, price and image, however well-formed the fields are. It passes the corrected validation. The form's resolver runs the same insert schema before sending. |
| Storage.EmptyValid | shared/schema.ts:5-24 | The empty database satisfies the integrity invariant. |
| Storage.EncodeDeals | server/storage.ts:42 | `deals ? JSON.stringify(deals) : null`: the result is null exactly for a missing value or the empty string. An array is always stored, as text that parses back to the array. |
| Storage.EmptyDealsStoredAsArray | server/storage.ts:42 | An empty deal list is truthy, so it is stored as `[]`, not null. |
| Storage.GetProducts | server/storage.ts:31-33 | Lists every row of `products`, each as often as it is stored, with no promise about order. `GetProductUnique` ties each listed row to `getProduct`. |
| Storage.GetProduct | server/storage.ts:35-38 | A row is found exactly when some row has the id, and it is a row with that id. |
| Storage.GetProductUnique | server/storage.ts:31-38 | In a valid database, every row that `getProducts` lists is the one `getProduct` returns for its id. |
| Storage.CreateProduct | server/storage.ts:40-53 | Succeeds exactly when both integers fit 32 bits. The new row has a fresh id, the given values, the JSON-encoded deals and `lastChecked` equal to the clock. It is appended, nothing else changes, and integrity holds. |
| Storage.PatchRowsKeepIds | server/storage.ts:55-65 | An update changes no row's id, so ids stay distinct. |
| Storage.UpdateProduct | server/storage.ts:55-65 | Only the row with the id changes: given columns are replaced and absent ones kept, while `deals` is always rewritten (null unless the update carries truthy deals). Other rows and the history are unchanged and integrity holds. The returned row exists exactly when the id does, and it is the updated row. |
| Storage.AddPriceHistory | server/storage.ts:72-78 | Succeeds exactly when the price fits and the product exists; otherwise the foreign key refuses. It appends exactly one row with the product, price, clock and a fresh id. Products and earlier rows are unchanged and integrity holds. |
| Storage.HistoryOf | server/storage.ts:84 | `WHERE product_id = id` keeps exactly that product's rows. |
| Storage.HistoryOfAppend | server/storage.ts:72-78 | Appending a row extends only its own product's history, at the end. |
| Storage.UnusedIdHasNoHistory | server/storage.ts:80-86 | An id no row mentions has an empty history. |
| Storage.InsertByTime | server/storage.ts:85 | Insertion into a time-sorted list keeps it sorted and adds exactly the one row. |
| Storage.SortByTime | server/storage.ts:85 | `ORDER BY timestamp` returns the same rows, as a multiset, in ascending time order. |
| Storage.GetPriceHistory | server/storage.ts:80-86 | Returns exactly the product's rows, each as often as stored, in ascending timestamp order. |
| Storage.UnknownProductHasNoHistory | server/storage.ts:80-86 | An unknown product id reads as an empty history, not an error. |
| Storage.RemoveProductKeepsIdsDistinct | server/storage.ts:68 | Deleting product rows keeps the remaining ids distinct. |
| Storage.RemoveHistoryKeepsIdsDistinct | server/storage.ts:69 | Deleting history rows keeps the remaining ids distinct. |
| Storage.DeleteProductAsWritten | server/storage.ts:67-70 | As written: the first statement is refused by the foreign key exactly when a history row references the product. Otherwise only that product's row goes, the history is unchanged, and integrity holds. |
| Storage.DeleteProduct | server/storage.ts:67-70 | Corrected order: neither the product nor any of its history remains. Every other row is kept and integrity holds. |
| Storage.DeletedProductLeavesNothing | server/storage.ts:67-70 | After the corrected delete, `getProduct` finds nothing and `getPriceHistory` is empty for that id. |
| Routes.Merge | server/routes.ts:121-124 | `{ ...result.data, ...scrapedData }`: title, price and image come from the scrape, and url, email and threshold from the request. The deal list is stored as text that parses back to the scraped list. |
| Routes.CreatedProductAcceptsHistory | server/routes.ts:121-127 | The history insert after a successful create cannot hit the foreign key. |
| Routes.CreateAndRecord | server/routes.ts:121-127 | The two writes together add one product and one history row at its price, and keep integrity. |
| Routes.Commit | server/routes.ts:121-135 | Within the model's failure set (32-bit range and the foreign key), either both rows are written, or nothing is written and the answer is 500. The writes succeed exactly when price and threshold fit 32 bits. |
| Routes.Track | server/routes.ts:117-135 | A failed scrape answers 500 with the generic message and writes nothing. Success needs the scrape and both integers to fit. The stored row then takes title, price, image and deals from the scrape, and url, email and threshold from the request. Exactly one history row is added, at that price. |
| Routes.PostProduct | server/routes.ts:106-136 | The handler as written answers 400 with the issues exactly when the insert schema rejects the body, without scraping or writing. For a valid body, a failed scrape answers 500 with the generic message and writes nothing. The answer is 200 exactly when the scrape succeeds and both price and threshold fit 32 bits. Only a 200 writes, and it stores the scraped row with its one history row. |
| Routes.PostTrack | server/routes.ts:106-136 | The same handler with the corrected validation: 400 exactly when url, email or threshold is invalid. For a valid body, a failed scrape answers 500 with the generic message, and the answer is 200 exactly when the scrape succeeds and both integers fit. The write guarantees are those of `PostProduct`. |
| Routes.RejectedBodyIgnoresWeb | server/routes.ts:109-115 | A rejected body is answered 400 without looking at the network: any two fetchers give the same answer. |
| Routes.TrackedHistoryIsFirstObservation | server/routes.ts:126-127 | After a successful request, the product's history is a single row holding the scraped price. |
| Routes.TrackedProductUndeletable | server/storage.ts:67-70 | With the delete as written, a product tracked through the handler can never be deleted. |
| Routes.TrackedProductDeletable | server/storage.ts:67-70 | With the corrected delete, it goes with its history, and the products that existed before stay. |
| Routes.FormRequestRefused | client/src/components/track-form.tsx:35-40 | The handler as written refuses a body with only the form's fields with 400, on title, price and image, and writes nothing. The corrected handler scrapes instead. |
| Scenario.TrackingExample | server/routes.ts:106-136 | With the corrected validation (`PostTrack`), the form's request for the example amazon.in page, on an empty database, stores "Widget Pro" at 18999 with threshold 15000 and deals `["Top deal"]`. Its history is that one price, and the delete as written cannot remove it. |

## Left out

- The network, HTML parsing and URL parsing are not modelled. The fetch
  (axios, with its User-Agent header), cheerio's selector engine and
  `new URL(url).hostname` are the `Web` record's functions. Pages are
  abstract element sequences. Only class and id names and the descendant
  combinator are modelled, which covers every selector the scraper uses.
- The real code fetches the page before it looks up the retailer, and the
  model keeps that order. Looking the retailer up first would give the same
  response, because every failure gives the same message. It would not
  give the same traffic: an unsupported hostname is still fetched.
- zod's URL and e-mail grammars are the uninterpreted predicates of
  `Syntax`. Type coercion of JSON values is reduced to the `Field` cases:
  absent, null, given or mistyped. `new URL(url).hostname` lower-cases
  ASCII hostnames, and `Web.hostname` stands for that parser.
- Routes.PostProduct, Routes.PostTrack, Schema.ValidateInsert and
  Schema.ValidateTrack: the threshold is an integer. zod's
  `z.number().min(0)` also accepts a fractional threshold such as 1.5, sent
  by a client other than the form (the form applies `parseInt`). The real
  handler then scrapes the page, and PostgreSQL refuses the value for the
  `integer` column, so the answer is 500 after a fetch. The model cannot
  express such a body.
- Drizzle, PostgreSQL, transactions and connection errors are replaced by
  in-memory tables. Serial counters are unbounded, so sequence exhaustion
  is not modelled.
- Routes.Commit, Routes.Track: "both rows or neither" holds only for the
  model's failure set, which is the 32-bit range and the foreign key. The
  handler runs `createProduct` and then `addPriceHistory`
  (server/routes.ts:121-127) outside any transaction. A connection error
  on the second insert leaves a product with no history and answers 500.
  Requests are modelled one at a time. A concurrent
  `DELETE /api/products/:id` between the two writes would succeed, since
  no history exists yet, and the history insert would then fail on the
  foreign key.
- Express plumbing is left out. So are console logging, the `GET` and
  `DELETE` route wrappers and their `parseInt` of path ids, and all client
  rendering.
- `parseInt` reads a long digit string as a double, which loses precision
  past 2^53. The model reads digits exactly. Any such price is far outside
  the 32-bit `current_price` column, and the create fails on it in both the
  model and the database.
- `retailers[domain]` on a plain object also finds inherited keys.
  `constructor` is a valid single-label hostname, and
  `retailers["constructor"]` is truthy, so the lookup passes. The selectors
  it then reads are undefined, so the price read fails and the scrape ends
  in the generic error. The model's table holds only the two hostnames, so
  the lookup fails instead, with the same generic error.
- Storage.GetProducts: the model lists rows in insertion order, and an
  update keeps a row in its place. `db.select().from(products)`
  (server/storage.ts:32) has no ORDER BY, so PostgreSQL returns the rows in
  no guaranteed order. The contract promises only the multiset of rows.
- Rows with equal timestamps come back in an order PostgreSQL leaves
  unspecified. The model fixes one order and states only sortedness and
  the multiset of rows.
- `updateProduct` receives a `Partial<Product>`, which could also carry an
  `id`. The model's `Patch` cannot change the primary key.
- JSON decoding covers the text `JSON.stringify` writes for an array of
  strings, plus insignificant whitespace. Other JSON values, and lone
  surrogate escapes, are rejected as syntax errors.
- Schema.FormBodyFailsInsert: states the set of failing columns rather
  than their order. The order is the table's column order.
- Routes.FormRequestRefused: states the set of issues rather than their
  order, for the same reason.

## Findings

| source | as written | input that shows it | evidently intended | confidence | as-written member | corrected member |
|---|---|---|---|---|---|---|
| server/storage.ts:67-70 | `deleteProduct` deletes the product row before its history rows. The `price_history.product_id` foreign key (shared/schema.ts:19-21) refuses the first statement. | Any product created through `POST /api/products`: the handler always adds one history row for it. | Delete the history rows first, then the product. | not executed | Storage.DeleteProductAsWritten, Routes.TrackedProductUndeletable | Storage.DeleteProduct, Routes.TrackedProductDeletable, Storage.DeletedProductLeavesNothing |
| shared/schema.ts:26-32 | `insertProductSchema` still requires `title`, `currentPrice` and `imageUrl`. The tracking form and the handler validate with it, but the form has fields only for url, email and threshold. | The values url, email and `priceThreshold: 15000`, with a valid url and email. The form's own resolver (client/src/components/track-form.tsx:27) runs the same schema and blocks the submission. A body with only those three properties sent to the handler is refused with 400. No product can be tracked from the form. | Validate only the user-supplied columns and take the rest from the scrape. | not executed | Routes.PostProduct, Schema.FormBodyFailsInsert, Routes.FormRequestRefused | Schema.ValidateTrack, Routes.PostTrack, Scenario.TrackingExample |

=== FILE: json.dfy ===
/**
  The text encoding of the `deals` column: `JSON.stringify` of an array of
  strings on the way in, and `JSON.parse` on the way out (the product card
  decodes it before rendering). The grammar is that of RFC 8259: strings and
  their escapes (section 7), arrays (section 5) and insignificant whitespace
  (section 2).
*/
module Json {
  import opened Wrappers

  /** `JSON.parse` throws a SyntaxError on text outside the grammar. */
  datatype ParseError = SyntaxError

  // ---------------------------------------------------------------------------
  // Encoding (ECMAScript QuoteJSONString, and JSON.stringify of an array)
  // ---------------------------------------------------------------------------

  /** Lower-case hexadecimal digit, as `JSON.stringify` writes it in `\u00XX`. */
  function HexDigit(d: nat): (c: char)
    requires d < 16
  {
    if d < 10 then ('0' as int + d) as char else ('a' as int + d - 10) as char
  }

  /** How `JSON.stringify` writes one character inside a string literal. */
  function Escape(c: char): string {
    var n := c as int;
    if c == '"' then ['\\', '"']
    else if c == '\\' then ['\\', '\\']
    else if n == 0x08 then ['\\', 'b']
    else if n == 0x0C then ['\\', 'f']
    else if c == '\n' then ['\\', 'n']
    else if c == '\r' then ['\\', 'r']
    else if c == '\t' then ['\\', 't']
    else if n < 0x20 then ['\\', 'u', '0', '0', HexDigit(n / 16), HexDigit(n % 16)]
    else [c]
  }

  function QuoteBody(s: string): string {
    if s == [] then [] else Escape(s[0]) + QuoteBody(s[1..])
  }

  /** `JSON.stringify(s)` for a string `s`. */
  function Quote(s: string): string {
    ['"'] + QuoteBody(s) + ['"']
  }

  function JoinQuoted(xs: seq<string>): string {
    if |xs| == 0 then []
    else if |xs| == 1 then Quote(xs[0])
    else Quote(xs[0]) + [','] + JoinQuoted(xs[1..])
  }

  /**
    `JSON.stringify(xs)` for an array of strings: no whitespace,
    comma-separated, between brackets; only the empty array is `[]`.
    `StringifyRoundTrip` below is its inverse.
  */
  function Stringify(xs: seq<string>): (r: string)
    ensures |r| >= 2 && r[0] == '[' && r[|r| - 1] == ']'
    ensures r == "[]" <==> xs == []
  {
    assert xs != [] ==> JoinQuoted(xs) != [] by {
      if xs != [] {
        JoinQuotedStart(xs, []);
        assert JoinQuoted(xs) + [] == JoinQuoted(xs);
      }
    }
    ['['] + JoinQuoted(xs) + [']']
  }

  // ---------------------------------------------------------------------------
  // Decoding (JSON.parse, for text whose value is an array of strings)
  // ---------------------------------------------------------------------------

  /** Insignificant whitespace of RFC 8259 section 2. */
  predicate IsJsonSpace(c: char) {
    c == ' ' || c == '\t' || c == '\n' || c == '\r'
  }

  function SkipSpace(s: string): (r: string)
    ensures |r| <= |s|
    ensures r != [] ==> !IsJsonSpace(r[0])
  {
    if s != [] && IsJsonSpace(s[0]) then SkipSpace(s[1..]) else s
  }

  function HexValue(c: char): (r: Option<nat>)
    ensures r.Some? ==> r.value < 16
  {
    if '0' <= c <= '9' then Some(c as int - '0' as int)
    else if 'a' <= c <= 'f' then Some(c as int - 'a' as int + 10)
    else if 'A' <= c <= 'F' then Some(c as int - 'A' as int + 10)
    else None
  }

  /** The code unit written as four hexadecimal digits after `\u`. */
  function Hex4(s: string): (r: Option<nat>)
    requires |s| == 4
    ensures r.Some? ==> r.value < 0x10000
  {
    match (HexValue(s[0]), HexValue(s[1]), HexValue(s[2]), HexValue(s[3]))
    case (Some(a), Some(b), Some(c), Some(d)) => Some(((a * 16 + b) * 16 + c) * 16 + d)
    case _ => None
  }

  /**
    A `\uXXXX` escape at the start of `s`: a code point outside the surrogate
    range, or a high surrogate immediately followed by an escaped low one.
    Returns the character and the number of input characters it used.
  */
  function ReadUnicode(s: string): (r: Result<(char, nat), ParseError>)
    requires |s| >= 2 && s[0] == '\\' && s[1] == 'u'
    ensures r.Success? ==> 0 < r.value.1 <= |s|
  {
    if |s| < 6 then Failure(SyntaxError)
    else match Hex4(s[2..6])
      case None => Failure(SyntaxError)
      case Some(hi) =>
        if hi < 0xD800 || 0xE000 <= hi then Success((hi as char, 6))
        else if 0xDC00 <= hi then Failure(SyntaxError)
        else if |s| < 12 || s[6] != '\\' || s[7] != 'u' then Failure(SyntaxError)
        else match Hex4(s[8..12])
          case Some(lo) =>
            if 0xDC00 <= lo < 0xE000 then
              Success(((0x10000 + (hi - 0xD800) * 0x400 + (lo - 0xDC00)) as char, 12))
            else Failure(SyntaxError)
          case None => Failure(SyntaxError)
  }

  /** An escape sequence (RFC 8259 section 7) at the start of `s`. */
  function ReadEscape(s: string): (r: Result<(char, nat), ParseError>)
    requires s != [] && s[0] == '\\'
    ensures r.Success? ==> 0 < r.value.1 <= |s|
  {
    if |s| < 2 then Failure(SyntaxError)
    else
      var e := s[1];
      if e == '"' || e == '\\' || e == '/' then Success((e, 2))
      else if e == 'b' then Success((0x08 as char, 2))
      else if e == 'f' then Success((0x0C as char, 2))
      else if e == 'n' then Success(('\n', 2))
      else if e == 'r' then Success(('\r', 2))
      else if e == 't' then Success(('\t', 2))
      else if e == 'u' then ReadUnicode(s)
      else Failure(SyntaxError)
  }

  /** One character of a string literal's body: escaped, or any character but a control character. */
  function ReadChar(s: string): (r: Result<(char, nat), ParseError>)
    requires s != [] && s[0] != '"'
    ensures r.Success? ==> 0 < r.value.1 <= |s|
  {
    if s[0] == '\\' then ReadEscape(s)
    else if (s[0] as int) < 0x20 then Failure(SyntaxError)
    else Success((s[0], 1))
  }

  /** The body of a string literal up to its closing quote: the decoded string and the text after the quote. */
  function ParseStringBody(s: string): (r: Result<(string, string), ParseError>)
    ensures r.Success? ==> |r.value.1| < |s|
    decreases |s|
  {
    if s == [] then Failure(SyntaxError)
    else if s[0] == '"' then Success(([], s[1..]))
    else
      var c :- ReadChar(s);
      var tail :- ParseStringBody(s[c.1..]);
      Success(([c.0] + tail.0, tail.1))
  }

  /** The elements of a non-empty array of strings and its closing bracket; returns the text after it. */
  function ParseItems(s: string): (r: Result<(seq<string>, string), ParseError>)
    ensures r.Success? ==> |r.value.1| < |s|
    decreases |s|
  {
    if s == [] || s[0] != '"' then Failure(SyntaxError)
    else
      var str :- ParseStringBody(s[1..]);
      var t := SkipSpace(str.1);
      if t != [] && t[0] == ']' then Success(([str.0], t[1..]))
      else if t != [] && t[0] == ',' then
        var more :- ParseItems(SkipSpace(t[1..]));
        Success(([str.0] + more.0, more.1))
      else Failure(SyntaxError)
  }

  /** `JSON.parse(text)` where the value is expected to be an array of strings. */
  function ParseStringArray(text: string): (r: Result<seq<string>, ParseError>)
    ensures r.Success? ==> SkipSpace(text) != [] && SkipSpace(text)[0] == '['
    ensures r == Success([]) ==> SkipSpace(SkipSpace(text)[1..]) != [] && SkipSpace(SkipSpace(text)[1..])[0] == ']'
  {
    var t := SkipSpace(text);
    if t == [] || t[0] != '[' then Failure(SyntaxError)
    else
      var u := SkipSpace(t[1..]);
      if u != [] && u[0] == ']' then
        if SkipSpace(u[1..]) == [] then Success([]) else Failure(SyntaxError)
      else
        var items :- ParseItems(u);
        if SkipSpace(items.1) == [] then Success(items.0) else Failure(SyntaxError)
  }

  // ---------------------------------------------------------------------------
  // Round trip
  // ---------------------------------------------------------------------------

  lemma HexDigitValue(d: nat)
    requires d < 16
    ensures HexValue(HexDigit(d)) == Some(d)
  {
  }

  /** Every character `JSON.stringify` writes is read back as itself, using exactly its escape. */
  lemma ReadEscaped(c: char, rest: string)
    ensures Escape(c) + rest != [] && (Escape(c) + rest)[0] != '"'
    ensures ReadChar(Escape(c) + rest) == Success((c, |Escape(c)|))
  {
    var n := c as int;
    var s := Escape(c) + rest;
    if c != '"' && c != '\\' && n != 0x08 && n != 0x0C && c != '\n' && c != '\r' && c != '\t' && n < 0x20 {
      HexDigitValue(n / 16);
      HexDigitValue(n % 16);
      assert s[2..6] == ['0', '0', HexDigit(n / 16), HexDigit(n % 16)];
      assert Hex4(s[2..6]) == Some(n);
    }
  }

  lemma {:induction false} QuoteBodyRoundTrip(x: string, rest: string)
    ensures ParseStringBody(QuoteBody(x) + ['"'] + rest) == Success((x, rest))
  {
    var s := QuoteBody(x) + ['"'] + rest;
    if x == [] {
      assert s == ['"'] + rest;
    } else {
      var e := Escape(x[0]);
      var tail := QuoteBody(x[1..]) + ['"'] + rest;
      assert s == e + tail;
      ReadEscaped(x[0], tail);
      assert s[|e|..] == tail;
      QuoteBodyRoundTrip(x[1..], rest);
      assert [x[0]] + x[1..] == x;
    }
  }

  /** A quoted string followed by `tail`: the body parses back to the string and leaves `tail`. */
  lemma QuoteRoundTrip(x: string, tail: string)
    ensures (Quote(x) + tail)[0] == '"'
    ensures ParseStringBody((Quote(x) + tail)[1..]) == Success((x, tail))
  {
    assert (Quote(x) + tail)[1..] == QuoteBody(x) + ['"'] + tail;
    QuoteBodyRoundTrip(x, tail);
  }

  lemma JoinQuotedStart(xs: seq<string>, tail: string)
    requires |xs| > 0
    ensures (JoinQuoted(xs) + tail)[0] == '"'
  {
    if |xs| == 1 {
      assert JoinQuoted(xs) + tail == Quote(xs[0]) + tail;
    } else {
      assert JoinQuoted(xs) + tail == Quote(xs[0]) + ([','] + JoinQuoted(xs[1..]) + tail);
    }
  }

  /** The last element of an array: a string literal and the closing bracket. */
  lemma ParseItemsLast(s: string, x: string, rest: string)
    requires s != [] && s[0] == '"'
    requires ParseStringBody(s[1..]) == Success((x, [']'] + rest))
    ensures ParseItems(s) == Success(([x], rest))
  {
    assert SkipSpace([']'] + rest) == [']'] + rest;
  }

  /** A string literal and a comma in front of the remaining elements. */
  lemma ParseItemsCons(s: string, x: string, m: string, ys: seq<string>, rest: string)
    requires s != [] && s[0] == '"'
    requires ParseStringBody(s[1..]) == Success((x, [','] + m))
    requires m != [] && m[0] == '"'
    requires ParseItems(m) == Success((ys, rest))
    ensures ParseItems(s) == Success(([x] + ys, rest))
  {
    var tail := [','] + m;
    assert SkipSpace(tail) == tail;
    assert tail[1..] == m;
    assert SkipSpace(m) == m;
  }

  lemma ItemsRoundTripOne(x: string, rest: string)
    ensures ParseItems(JoinQuoted([x]) + [']'] + rest) == Success(([x], rest))
  {
    var s := JoinQuoted([x]) + [']'] + rest;
    assert s == Quote(x) + ([']'] + rest);
    QuoteRoundTrip(x, [']'] + rest);
    ParseItemsLast(s, x, rest);
  }

  lemma AppendAssoc(a: string, b: string, c: string)
    ensures a + b + c == a + (b + c)
  {
  }

  lemma AppendRegroup(a: string, b: string, c: string, t: string)
    ensures a + b + c + t == a + (b + (c + t))
  {
  }

  lemma JoinQuotedCons(x: string, ys: seq<string>, rest: string)
    requires |ys| > 0
    ensures JoinQuoted([x] + ys) + rest == Quote(x) + ([','] + (JoinQuoted(ys) + rest))
  {
    var xs := [x] + ys;
    assert xs[0] == x && xs[1..] == ys;
    assert JoinQuoted(xs) == Quote(x) + [','] + JoinQuoted(ys);
    AppendRegroup(Quote(x), [','], JoinQuoted(ys), rest);
  }

  /** The text of `[x] + ys` is the literal of `x`, a comma, and the text of `ys`. */
  lemma ItemsStepShape(x: string, ys: seq<string>, rest: string)
    requires |ys| > 0
    ensures var m := JoinQuoted(ys) + [']'] + rest;
            m != [] && m[0] == '"'
    ensures var s := JoinQuoted([x] + ys) + [']'] + rest;
            s != [] && s[0] == '"' && ParseStringBody(s[1..]) == Success((x, [','] + (JoinQuoted(ys) + [']'] + rest)))
  {
    var t := [']'] + rest;
    var m := JoinQuoted(ys) + [']'] + rest;
    assert m == JoinQuoted(ys) + t by {
      AppendAssoc(JoinQuoted(ys), [']'], rest);
    }
    assert m != [] && m[0] == '"' by {
      JoinQuotedStart(ys, t);
    }
    var s := JoinQuoted([x] + ys) + [']'] + rest;
    assert s == Quote(x) + ([','] + m) by {
      AppendAssoc(JoinQuoted([x] + ys), [']'], rest);
      JoinQuotedCons(x, ys, t);
    }
    QuoteRoundTrip(x, [','] + m);
  }

  lemma {:induction false} ItemsRoundTrip(xs: seq<string>, rest: string)
    requires |xs| > 0
    ensures ParseItems(JoinQuoted(xs) + [']'] + rest) == Success((xs, rest))
    decreases |xs|
  {
    if |xs| == 1 {
      ItemsRoundTripOne(xs[0], rest);
      assert xs == [xs[0]];
    } else {
      var x, ys := xs[0], xs[1..];
      assert xs == [x] + ys;
      ItemsRoundTrip(ys, rest);
      ItemsStepShape(x, ys, rest);
      ParseItemsCons(JoinQuoted(xs) + [']'] + rest, x, JoinQuoted(ys) + [']'] + rest, ys, rest);
    }
  }

  /** Decoding the stored text reproduces the ordered list exactly, including the empty list. */
  lemma StringifyRoundTrip(xs: seq<string>)
    ensures ParseStringArray(Stringify(xs)) == Success(xs)
  {
    var text := Stringify(xs);
    assert SkipSpace(text) == text;
    if |xs| == 0 {
      assert text[1..] == [']'];
      assert SkipSpace(text[1..]) == [']'];
    } else {
      var u := JoinQuoted(xs) + [']'] + [];
      assert text[1..] == u;
      assert SkipSpace(u) == u by {
        JoinQuotedStart(xs, [']'] + []);
        AppendAssoc(JoinQuoted(xs), [']'], []);
      }
      ItemsRoundTrip(xs, []);
    }
  }

  /** Different lists are stored as different texts. */
  lemma StringifyInjective(xs: seq<string>, ys: seq<string>)
    requires Stringify(xs) == Stringify(ys)
    ensures xs == ys
  {
    StringifyRoundTrip(xs);
    StringifyRoundTrip(ys);
  }
}

=== FILE: page.dfy ===
/**
  An abstract fetched page, standing in for the HTML document that cheerio
  loads: the elements in document order, and the selectors the scraper
  applies to them.
*/
module Page {
  import opened Wrappers
  import opened Text

  /**
    One element: its class and id names (written `.name` and `#name`), the
    class and id names of its ancestors, its text content and its attributes.
  */
  datatype Element = Element(tags: set<string>, ancestorTags: set<string>, text: string, attrs: map<string, string>)

  /** The elements of a page, in document order. */
  type Document = seq<Element>

  /** One selector: a class or id name, or one nested anywhere inside another (the descendant combinator). */
  datatype Locator = Tag(name: string) | Within(ancestor: string, name: string)

  /** A comma-separated selector list: it matches an element that any of its members matches. */
  type Selector = set<Locator>

  predicate Matches(e: Element, loc: Locator) {
    match loc
    case Tag(n) => n in e.tags
    case Within(a, n) => n in e.tags && a in e.ancestorTags
  }

  predicate MatchesAny(e: Element, sel: Selector) {
    exists loc :: loc in sel && Matches(e, loc)
  }

  /** Element `i` is the first element in document order that `sel` matches: what `$(sel).first()` selects. */
  ghost predicate IsFirstMatch(doc: Document, sel: Selector, i: int) {
    0 <= i < |doc| && MatchesAny(doc[i], sel) && forall j :: 0 <= j < i ==> !MatchesAny(doc[j], sel)
  }

  ghost predicate NoMatch(doc: Document, sel: Selector) {
    forall j :: 0 <= j < |doc| ==> !MatchesAny(doc[j], sel)
  }

  /** The position of the first match of `sel`, if any. */
  function FirstMatch(doc: Document, sel: Selector): (r: Option<nat>)
    ensures r.Some? ==> IsFirstMatch(doc, sel, r.value)
    ensures r.None? <==> NoMatch(doc, sel)
  {
    if doc == [] then None
    else if MatchesAny(doc[0], sel) then Some(0)
    else match FirstMatch(doc[1..], sel)
      case None => None
      case Some(i) => Some(i + 1)
  }

  /** `$(sel).first().text()`: the text of the first match, or the empty string when nothing matches. */
  function FirstText(doc: Document, sel: Selector): (r: string)
    ensures NoMatch(doc, sel) ==> r == []
    ensures !NoMatch(doc, sel) ==> exists i :: IsFirstMatch(doc, sel, i) && r == doc[i].text
  {
    match FirstMatch(doc, sel)
    case None => []
    case Some(i) => doc[i].text
  }

  /** `$(sel).first().attr(name)`: undefined when nothing matches or the first match lacks the attribute. */
  function FirstAttr(doc: Document, sel: Selector, name: string): (r: Option<string>)
    ensures r.Some? <==> exists i :: IsFirstMatch(doc, sel, i) && name in doc[i].attrs
    ensures r.Some? ==> exists i :: IsFirstMatch(doc, sel, i) && r.value == doc[i].attrs[name]
  {
    match FirstMatch(doc, sel)
    case None => None
    case Some(i) => if name in doc[i].attrs then Some(doc[i].attrs[name]) else None
  }

  /** There is only one first match. */
  lemma FirstMatchUnique(doc: Document, sel: Selector, i: int, j: int)
    requires IsFirstMatch(doc, sel, i) && IsFirstMatch(doc, sel, j)
    ensures i == j
  {
  }

  /** The trimmed first text is non-blank exactly when there is a first match with non-blank text, and then it is that text trimmed. */
  lemma FirstTextTrimmed(doc: Document, sel: Selector)
    ensures Trim(FirstText(doc, sel)) != [] <==> exists i :: IsFirstMatch(doc, sel, i) && !AllSpace(doc[i].text)
    ensures Trim(FirstText(doc, sel)) != [] ==>
      exists i :: IsFirstMatch(doc, sel, i) && Trim(FirstText(doc, sel)) == Trim(doc[i].text)
  {
    if i :| IsFirstMatch(doc, sel, i) && !AllSpace(doc[i].text) {
      var j :| IsFirstMatch(doc, sel, j) && FirstText(doc, sel) == doc[j].text;
      FirstMatchUnique(doc, sel, i, j);
    }
  }

  /** Which trimmed texts a scan keeps: every non-empty one, or the non-empty ones containing a word. */
  datatype TextFilter = NonEmpty | Mentioning(word: string)

  predicate Keeps(f: TextFilter, t: string) {
    t != [] && match f
      case NonEmpty => true
      case Mentioning(w) => Contains(t, w)
  }

  /** Element `e` contributes text `t` to a scan for `loc` with filter `f`. */
  ghost predicate Yields(e: Element, loc: Locator, f: TextFilter, t: string) {
    Matches(e, loc) && t == Trim(e.text) && Keeps(f, t)
  }

  ghost predicate SomeElementYields(doc: Document, loc: Locator, f: TextFilter, t: string) {
    exists i :: 0 <= i < |doc| && Yields(doc[i], loc, f, t)
  }

  lemma SomeElementYieldsCons(doc: Document, loc: Locator, f: TextFilter, t: string)
    requires doc != []
    ensures SomeElementYields(doc, loc, f, t) <==> Yields(doc[0], loc, f, t) || SomeElementYields(doc[1..], loc, f, t)
  {
    if SomeElementYields(doc, loc, f, t) {
      var i :| 0 <= i < |doc| && Yields(doc[i], loc, f, t);
      if i > 0 {
        assert doc[1..][i - 1] == doc[i];
      }
    }
    if SomeElementYields(doc[1..], loc, f, t) {
      var i :| 0 <= i < |doc[1..]| && Yields(doc[1..][i], loc, f, t);
      assert doc[i + 1] == doc[1..][i];
    }
  }

  /**
    `$(loc).each(...)` pushing every match's trimmed text that the filter
    keeps: each entry is a kept, trimmed text, and a text is in the result
    exactly when some matching element has it.
  */
  function Collect(doc: Document, loc: Locator, f: TextFilter): (r: seq<string>)
    ensures forall k :: 0 <= k < |r| ==> Keeps(f, r[k]) && Trim(r[k]) == r[k]
    ensures forall t :: t in r <==> SomeElementYields(doc, loc, f, t)
  {
    if doc == [] then []
    else
      var rest := Collect(doc[1..], loc, f);
      var t := Trim(doc[0].text);
      TrimIdempotent(doc[0].text);
      assert forall t' :: SomeElementYields(doc, loc, f, t') <==> Yields(doc[0], loc, f, t') || SomeElementYields(doc[1..], loc, f, t') by {
        forall t' {
          SomeElementYieldsCons(doc, loc, f, t');
        }
      }
      if Matches(doc[0], loc) && Keeps(f, t) then [t] + rest else rest
  }

  /** Scanning a page in two parts gives the two parts' results in order: document order is kept and duplicates are not removed. */
  lemma {:induction false} CollectAppend(a: Document, b: Document, loc: Locator, f: TextFilter)
    ensures Collect(a + b, loc, f) == Collect(a, loc, f) + Collect(b, loc, f)
  {
    if a == [] {
      assert a + b == b;
    } else {
      assert (a + b)[0] == a[0];
      assert (a + b)[1..] == a[1..] + b;
      CollectAppend(a[1..], b, loc, f);
    }
  }

  /** A scan over a page where nothing matches its locator collects nothing. */
  lemma CollectNoMatch(doc: Document, loc: Locator, f: TextFilter)
    requires forall i :: 0 <= i < |doc| ==> !Matches(doc[i], loc)
    ensures Collect(doc, loc, f) == []
  {
  }

  /** A scan over one element keeps its trimmed text exactly when the element matches and the filter accepts the text. */
  lemma CollectSingle(e: Element, loc: Locator, f: TextFilter)
    ensures Collect([e], loc, f) == if Matches(e, loc) && Keeps(f, Trim(e.text)) then [Trim(e.text)] else []
  {
    assert [e][1..] == [];
  }
}

=== FILE: routes.dfy ===
/**
  The POST /api/products handler of server/routes.ts: validate the request
  body, scrape the product page, create the product with the scraped values
  overriding the request's, and record the first price-history row.
*/
module Routes {
  import opened Wrappers
  import opened Schema
  import opened Scraper
  import opened Storage
  import Json

  /** The abstract HTTP answer: 400 with the failing columns, 500 with a message, or 200 with the product. */
  datatype Response = BadRequest(issues: seq<Column>) | ServerError(message: string) | Tracked(product: Product)
  {
    function Status(): nat {
      match this
      case BadRequest(_) => 400
      case ServerError(_) => 500
      case Tracked(_) => 200
    }
  }

  /**
    The product to insert: `{ ...request, ...scraped }`. The scraped title,
    price, image and deal list replace whatever the request carried; url,
    email and threshold come from the request.
  */
  function Merge(url: string, email: string, priceThreshold: int, facts: ScrapedFacts): (r: NewProduct)
    ensures r.url == url && r.email == email && r.priceThreshold == Some(priceThreshold)
    ensures r.title == facts.title && r.currentPrice == facts.currentPrice && r.imageUrl == facts.imageUrl
    ensures var stored := EncodeDeals(r.deals);
      stored.Some? && Json.ParseStringArray(stored.value) == Success(facts.deals)
  {
    NewProduct(url, facts.title, facts.currentPrice, facts.imageUrl, email, Some(priceThreshold), DealsList(facts.deals))
  }

  /** What a successful request leaves behind: the new row, built from request and scrape, and its one history row. */
  ghost predicate TrackedAsScraped(s: Store, s': Store, p: Product, url: string, email: string, priceThreshold: int,
                                   facts: ScrapedFacts, createdAt: Time, observedAt: Time)
  {
    && p.id !in ProductIds(s.products)
    && p.url == url && p.email == email && p.priceThreshold == Some(priceThreshold)
    && p.title == facts.title && p.currentPrice == facts.currentPrice && p.imageUrl == facts.imageUrl
    && p.deals.Some? && Json.ParseStringArray(p.deals.value) == Success(facts.deals)
    && p.lastChecked == createdAt
    && s'.products == s.products + [p]
    && |s'.history| == |s.history| + 1 && s'.history[..|s.history|] == s.history
    && s'.history[|s.history|].productId == p.id
    && s'.history[|s.history|].price == p.currentPrice
    && s'.history[|s.history|].timestamp == observedAt
  }

  /** Creating a product makes its id a valid target for history: the follow-up insert cannot fail. */
  lemma CreatedProductAcceptsHistory(s: Store, np: NewProduct, createdAt: Time, observedAt: Time)
    requires Valid(s)
    requires CreateProduct(s, np, createdAt).Success?
    ensures var (p, s1) := CreateProduct(s, np, createdAt).value;
      AddPriceHistory(s1, p.id, np.currentPrice, observedAt).Success?
  {
    var (p, s1) := CreateProduct(s, np, createdAt).value;
    assert p in s1.products;
  }

  /** The two writes of a successful request, taken together: one new product and one history row at its price. */
  lemma CreateAndRecord(s: Store, np: NewProduct, createdAt: Time, observedAt: Time)
    requires Valid(s)
    requires CreateProduct(s, np, createdAt).Success?
    ensures var (p, s1) := CreateProduct(s, np, createdAt).value;
      var r := AddPriceHistory(s1, p.id, np.currentPrice, observedAt);
      && r.Success?
      && r.value.products == s.products + [p]
      && |r.value.history| == |s.history| + 1 && r.value.history[..|s.history|] == s.history
      && r.value.history[|s.history|].productId == p.id
      && r.value.history[|s.history|].price == p.currentPrice
      && r.value.history[|s.history|].timestamp == observedAt
      && Valid(r.value)
  {
    var (p, s1) := CreateProduct(s, np, createdAt).value;
    CreatedProductAcceptsHistory(s, np, createdAt, observedAt);
    var s2 := AddPriceHistory(s1, p.id, np.currentPrice, observedAt).value;
    assert s2.history[..|s.history|] == s.history by {
      assert s2.history[..|s1.history|] == s1.history;
    }
  }

  /**
    The writes of a request whose page was scraped: create the product, then
    record its first price. `createdAt` and `observedAt` are the two readings
    of the clock (`lastChecked` and the history timestamp). Of the failures
    modelled (32-bit range, foreign key), none leaves one row without the
    other: either the product and its one history row are both written, or
    nothing is.
  */
  function Commit(s: Store, url: string, email: string, priceThreshold: int, facts: ScrapedFacts,
                  createdAt: Time, observedAt: Time): (r: (Response, Store))
    requires Valid(s)
    ensures Valid(r.1)
    ensures r.0.Tracked? || r.0.ServerError?
    ensures !r.0.Tracked? ==> r.1 == s
    ensures r.0.Tracked? <==> FitsInt4(facts.currentPrice) && FitsInt4(priceThreshold)
    ensures r.0.Tracked? ==> TrackedAsScraped(s, r.1, r.0.product, url, email, priceThreshold, facts, createdAt, observedAt)
  {
    var np := Merge(url, email, priceThreshold, facts);
    match CreateProduct(s, np, createdAt)
    case Failure(e) => (ServerError(e.Message()), s)
    case Success(created) =>
      var (p, s1) := created;
      CreateAndRecord(s, np, createdAt, observedAt);
      match AddPriceHistory(s1, p.id, facts.currentPrice, observedAt)
      case Failure(e) => (ServerError(e.Message()), s1)
      case Success(s2) => (Tracked(p), s2)
  }

  /**
    Everything after validation: scrape, then commit. A failed scrape answers
    500 with the one generic message and writes nothing.
  */
  function Track(s: Store, url: string, email: string, priceThreshold: int, web: Web,
                 createdAt: Time, observedAt: Time): (r: (Response, Store))
    requires Valid(s)
    ensures Valid(r.1)
    ensures r.0.Status() != 400
    ensures !r.0.Tracked? ==> r.1 == s
    ensures Scrape(url, web).Failure? ==> r.0 == ServerError(ScrapeFailedMessage)
    ensures r.0.Tracked? <==>
      Scrape(url, web).Success? && FitsInt4(Scrape(url, web).value.currentPrice) && FitsInt4(priceThreshold)
    ensures r.0.Tracked? ==>
      TrackedAsScraped(s, r.1, r.0.product, url, email, priceThreshold, Scrape(url, web).value, createdAt, observedAt)
  {
    match Scrape(url, web)
    case Failure(e) => (ServerError(e.message), s)
    case Success(facts) => Commit(s, url, email, priceThreshold, facts, createdAt, observedAt)
  }

  /**
    The handler as written: the body is checked against the insert schema,
    which still demands title, price and image although the scrape supplies
    them.
  */
  function PostProduct(s: Store, b: Body, syn: Syntax, web: Web, createdAt: Time, observedAt: Time): (r: (Response, Store))
    requires Valid(s)
    ensures Valid(r.1)
    ensures r.0.BadRequest? <==> ValidateInsert(b, syn).Failure?
    ensures r.0.BadRequest? ==> r == (BadRequest(ValidateInsert(b, syn).error), s)
    ensures !r.0.Tracked? ==> r.1 == s
    ensures ValidateInsert(b, syn).Success? ==>
      var d := ValidateInsert(b, syn).value;
      Scrape(d.url, web).Failure? ==> r == (ServerError(ScrapeFailedMessage), s)
    ensures ValidateInsert(b, syn).Success? ==>
      var d := ValidateInsert(b, syn).value;
      r.0.Tracked? <==> Scrape(d.url, web).Success? && FitsInt4(Scrape(d.url, web).value.currentPrice) && FitsInt4(d.priceThreshold)
    ensures r.0.Tracked? ==>
      var d := ValidateInsert(b, syn).value;
      && Scrape(d.url, web).Success?
      && TrackedAsScraped(s, r.1, r.0.product, d.url, d.email, d.priceThreshold, Scrape(d.url, web).value, createdAt, observedAt)
  {
    match ValidateInsert(b, syn)
    case Failure(issues) => (BadRequest(issues), s)
    case Success(d) => Track(s, d.url, d.email, d.priceThreshold, web, createdAt, observedAt)
  }

  /**
    The handler validating only what the tracking form sends (url, email,
    threshold), leaving title, price, image and deals to the scrape.
  */
  function PostTrack(s: Store, b: Body, syn: Syntax, web: Web, createdAt: Time, observedAt: Time): (r: (Response, Store))
    requires Valid(s)
    ensures Valid(r.1)
    ensures r.0.BadRequest? <==> ValidateTrack(b, syn).Failure?
    ensures r.0.BadRequest? ==> r == (BadRequest(ValidateTrack(b, syn).error), s)
    ensures !r.0.Tracked? ==> r.1 == s
    ensures ValidateTrack(b, syn).Success? ==>
      var d := ValidateTrack(b, syn).value;
      Scrape(d.url, web).Failure? ==> r == (ServerError(ScrapeFailedMessage), s)
    ensures ValidateTrack(b, syn).Success? ==>
      var d := ValidateTrack(b, syn).value;
      r.0.Tracked? <==> Scrape(d.url, web).Success? && FitsInt4(Scrape(d.url, web).value.currentPrice) && FitsInt4(d.priceThreshold)
    ensures r.0.Tracked? ==>
      var d := ValidateTrack(b, syn).value;
      && Scrape(d.url, web).Success?
      && TrackedAsScraped(s, r.1, r.0.product, d.url, d.email, d.priceThreshold, Scrape(d.url, web).value, createdAt, observedAt)
  {
    match ValidateTrack(b, syn)
    case Failure(issues) => (BadRequest(issues), s)
    case Success(d) => Track(s, d.url, d.email, d.priceThreshold, web, createdAt, observedAt)
  }

  /** A rejected body is answered without looking at the page: any two fetchers give the same answer. */
  lemma RejectedBodyIgnoresWeb(s: Store, b: Body, syn: Syntax, web1: Web, web2: Web, t1: Time, t2: Time)
    requires Valid(s)
    requires ValidateTrack(b, syn).Failure?
    ensures PostTrack(s, b, syn, web1, t1, t2) == PostTrack(s, b, syn, web2, t1, t2)
    ensures PostTrack(s, b, syn, web1, t1, t2).0.Status() == 400
  {
  }

  /** The stored history of a just-tracked product is its single first observation, at the scraped price. */
  lemma TrackedHistoryIsFirstObservation(s: Store, s': Store, p: Product, url: string, email: string, priceThreshold: int,
                                         facts: ScrapedFacts, createdAt: Time, observedAt: Time)
    requires Valid(s)
    requires TrackedAsScraped(s, s', p, url, email, priceThreshold, facts, createdAt, observedAt)
    ensures GetPriceHistory(s', p.id) == [HistoryRow(s'.history[|s.history|].id, p.id, p.currentPrice, observedAt)]
  {
    var h := s'.history[|s.history|];
    assert s'.history == s.history + [h] by {
      assert s'.history == s'.history[..|s.history|] + [h];
    }
    UnusedIdHasNoHistory(s.history, p.id);
    HistoryOfAppend(s.history, h, p.id);
    var r := GetPriceHistory(s', p.id);
    assert multiset(r) == multiset{h};
    assert |r| == 1;
    assert r[0] in multiset(r);
  }

  /**
    With the delete as written, a product tracked through the handler can
    never be deleted: its first history row holds the foreign key.
  */
  lemma TrackedProductUndeletable(s: Store, s': Store, p: Product, url: string, email: string, priceThreshold: int,
                                  facts: ScrapedFacts, createdAt: Time, observedAt: Time)
    requires Valid(s) && Valid(s')
    requires TrackedAsScraped(s, s', p, url, email, priceThreshold, facts, createdAt, observedAt)
    ensures DeleteProductAsWritten(s', p.id) == Failure(ProductStillReferenced)
  {
    assert s'.history[|s.history|] in s'.history;
  }

  /** With the corrected delete, the same product disappears with its history, and the products before it stay. */
  lemma TrackedProductDeletable(s: Store, s': Store, p: Product, url: string, email: string, priceThreshold: int,
                                facts: ScrapedFacts, createdAt: Time, observedAt: Time)
    requires Valid(s) && Valid(s')
    requires TrackedAsScraped(s, s', p, url, email, priceThreshold, facts, createdAt, observedAt)
    ensures GetProduct(DeleteProduct(s', p.id), p.id).None?
    ensures GetPriceHistory(DeleteProduct(s', p.id), p.id) == []
    ensures forall q :: q in s.products ==> q in DeleteProduct(s', p.id).products
  {
    DeletedProductLeavesNothing(s', p.id);
  }

  /**
    The tracking form's body (url, email, threshold) is refused with 400 by
    the handler as written, and accepted by the corrected validation, which
    then goes on to the scrape.
  */
  lemma FormRequestRefused(s: Store, url: string, email: string, threshold: int, syn: Syntax, web: Web, t1: Time, t2: Time)
    requires Valid(s)
    requires syn.isUrl(url) && syn.isEmail(email) && threshold >= 0
    ensures var b := Body(Given(url), Absent, Absent, Absent, Given(email), Given(threshold), Absent);
      && PostProduct(s, b, syn, web, t1, t2).0.BadRequest?
      && PostProduct(s, b, syn, web, t1, t2).1 == s
      && (forall c :: c in PostProduct(s, b, syn, web, t1, t2).0.issues <==> c == Title || c == CurrentPrice || c == ImageUrl)
      && PostTrack(s, b, syn, web, t1, t2) == Track(s, url, email, threshold, web, t1, t2)
  {
    FormBodyFailsInsert(url, email, threshold, syn);
  }
}

=== FILE: scenario.dfy ===
/**
  Worked examples over concrete pages: what the extractor makes of a
  Flipkart and an amazon.in product page, and one tracking request carried
  from the request body to the stored rows.
*/
module Scenario {
  import opened Wrappers
  import opened Text
  import opened Page
  import opened Scraper
  import opened Schema
  import opened Storage
  import opened Routes
  import Json

  const ImageSource := "https://img.example/w.jpg"

  lemma WidgetProIsTrimmed()
    ensures Trim("Widget Pro") == "Widget Pro"
  {
    assert !IsJsSpace('W') && !IsJsSpace('o');
    TrimOfTrimmed("Widget Pro");
  }

  // ---------------------------------------------------------------------------
  // flipkart.com
  // ---------------------------------------------------------------------------

  const FlipkartPage: Document := [
    Element({"._30jeq3"}, {}, "₹18,999", map[]),
    Element({".B_NuCI"}, {}, "Widget Pro", map[]),
    Element({"._396cs4"}, {}, "", map["src" := ImageSource])
  ]

  lemma FlipkartPrice()
    ensures PriceFromText(FirstText(FlipkartPage, FlipkartRules.price)) == Some(18999)
  {
    assert Matches(FlipkartPage[0], Tag("._30jeq3"));
    RupeePriceExample();
  }

  lemma FlipkartTitle()
    ensures Trim(FirstText(FlipkartPage, FlipkartRules.title)) == "Widget Pro"
  {
    var doc := FlipkartPage;
    assert !MatchesAny(doc[0], FlipkartRules.title);
    assert Matches(doc[1], Tag(".B_NuCI"));
    assert FirstMatch(doc, FlipkartRules.title) == Some(1);
    WidgetProIsTrimmed();
  }

  lemma FlipkartImage()
    ensures FirstAttr(FlipkartPage, FlipkartRules.image, "src") == Some(ImageSource)
  {
    var doc := FlipkartPage;
    assert "._396cs4" != "._30jeq3" && "._2r_T1I" != "._30jeq3";
    assert !MatchesAny(doc[0], FlipkartRules.image);
    assert !MatchesAny(doc[1], FlipkartRules.image);
    assert Matches(doc[2], Tag("._396cs4"));
    assert FirstMatch(doc, FlipkartRules.image) == Some(2);
  }

  /** A Flipkart page yields the first matches' price, title and image, and no deals. */
  lemma FlipkartExample()
    ensures Extract(FlipkartHost, FlipkartPage) == Success(ScrapedFacts("Widget Pro", 18999, ImageSource, []))
  {
    assert Lookup(FlipkartHost) == Some(FlipkartRules);
    assert FlipkartHost != AmazonHost by {
      assert |FlipkartHost| == 12 && |AmazonHost| == 9;
    }
    FlipkartPrice();
    FlipkartTitle();
    FlipkartImage();
    ExtractSucceeds(FlipkartHost, FlipkartPage, FlipkartRules, 18999, "Widget Pro", ImageSource);
  }

  // ---------------------------------------------------------------------------
  // amazon.in
  // ---------------------------------------------------------------------------

  const AmazonHead: Document := [
    Element({".a-offscreen"}, {}, "₹18,999", map[]),
    Element({"#productTitle"}, {}, "Widget Pro", map[]),
    Element({"#landingImage"}, {}, "", map["src" := ImageSource])
  ]

  const DayBadge := Element({".a-badge-text"}, {".a-box-inner"}, "Deal of the Day", map[])
  const TopBadge := Element({".a-badge-text"}, {".a-box-inner"}, "Top deal", map[])

  /** Two boxed badges follow the product: only the one spelling "deal" in lower case is a deal. */
  const AmazonPage: Document := AmazonHead + [DayBadge, TopBadge]

  /** Every class or id the page uses. */
  const PageTags: set<string> := {".a-offscreen", "#productTitle", "#landingImage", ".a-badge-text"}

  /** The classes the deal scans look for, none of them used on the page. */
  lemma DealTagsUnused()
    ensures ".dealBadge" !in PageTags && ".savingsPercentage" !in PageTags && ".promoPriceBlockMessage" !in PageTags
  {
    assert |".dealBadge"| == 10;
    assert |".savingsPercentage"| == 18;
    assert |".promoPriceBlockMessage"| == 23;
    assert forall t :: t in PageTags ==> 12 <= |t| <= 13;
  }

  lemma AmazonPageTags()
    ensures forall i :: 0 <= i < |AmazonPage| ==> AmazonPage[i].tags <= PageTags
  {
  }

  /** A locator naming a class or id the page does not use matches nothing on it. */
  lemma UnusedTagMatchesNothing(loc: Locator)
    requires loc.name !in PageTags
    ensures forall i :: 0 <= i < |AmazonPage| ==> !Matches(AmazonPage[i], loc)
    ensures NoMatch(AmazonPage, {loc})
  {
    AmazonPageTags();
  }

  lemma AmazonPrice()
    ensures PriceFromText(FirstText(AmazonPage, AmazonRules.price)) == Some(18999)
  {
    assert Matches(AmazonPage[0], Tag(".a-offscreen"));
    RupeePriceExample();
  }

  lemma AmazonTitle()
    ensures Trim(FirstText(AmazonPage, AmazonRules.title)) == "Widget Pro"
  {
    var doc := AmazonPage;
    assert !MatchesAny(doc[0], AmazonRules.title);
    assert Matches(doc[1], Tag("#productTitle"));
    assert FirstMatch(doc, AmazonRules.title) == Some(1);
    WidgetProIsTrimmed();
  }

  lemma AmazonImage()
    ensures FirstAttr(AmazonPage, AmazonRules.image, "src") == Some(ImageSource)
  {
    var doc := AmazonPage;
    assert !MatchesAny(doc[0], AmazonRules.image);
    assert !MatchesAny(doc[1], AmazonRules.image);
    assert Matches(doc[2], Tag("#landingImage"));
    assert FirstMatch(doc, AmazonRules.image) == Some(2);
  }

  lemma DayBadgeText()
    ensures Trim(DayBadge.text) == "Deal of the Day"
  {
    assert !IsJsSpace('D') && !IsJsSpace('y');
    TrimOfTrimmed("Deal of the Day");
  }

  /** The only "d" in the badge is upper-case, so the case-sensitive search for "deal" fails. */
  lemma DayBadgeNotDeal()
    ensures !Keeps(Mentioning("deal"), "Deal of the Day")
  {
    MissingFirstCharNotContained("Deal of the Day", "deal");
  }

  lemma DayBadgeSkipped()
    ensures Collect([DayBadge], Within(".a-box-inner", ".a-badge-text"), Mentioning("deal")) == []
  {
    DayBadgeText();
    DayBadgeNotDeal();
    CollectSingle(DayBadge, Within(".a-box-inner", ".a-badge-text"), Mentioning("deal"));
  }

  lemma TopBadgeText()
    ensures Trim(TopBadge.text) == "Top deal"
  {
    assert !IsJsSpace('T') && !IsJsSpace('l');
    TrimOfTrimmed("Top deal");
  }

  lemma TopBadgeIsDeal()
    ensures Keeps(Mentioning("deal"), "Top deal")
  {
    assert OccursAt("Top deal", "deal", 4);
  }

  lemma TopBadgeKept()
    ensures Collect([TopBadge], Within(".a-box-inner", ".a-badge-text"), Mentioning("deal")) == ["Top deal"]
  {
    TopBadgeText();
    TopBadgeIsDeal();
    CollectSingle(TopBadge, Within(".a-box-inner", ".a-badge-text"), Mentioning("deal"));
  }

  lemma HeadHasNoBadges()
    ensures forall i :: 0 <= i < |AmazonHead| ==> !Matches(AmazonHead[i], Within(".a-box-inner", ".a-badge-text"))
  {
    assert ".a-offscreen" != ".a-badge-text" by {
      assert |".a-offscreen"| == 12 && |".a-badge-text"| == 13;
    }
    assert "#productTitle"[0] != ".a-badge-text"[0];
    assert "#landingImage"[0] != ".a-badge-text"[0];
  }

  lemma BoxedBadges()
    ensures Collect(AmazonPage, Within(".a-box-inner", ".a-badge-text"), Mentioning("deal")) == ["Top deal"]
  {
    var loc := Within(".a-box-inner", ".a-badge-text");
    var f := Mentioning("deal");
    assert AmazonPage == AmazonHead + [DayBadge] + [TopBadge];
    CollectAppend(AmazonHead + [DayBadge], [TopBadge], loc, f);
    CollectAppend(AmazonHead, [DayBadge], loc, f);
    HeadHasNoBadges();
    CollectNoMatch(AmazonHead, loc, f);
    DayBadgeSkipped();
    TopBadgeKept();
  }

  lemma AmazonDealsExample()
    ensures AmazonDeals(AmazonPage) == ["Top deal"]
  {
    DealTagsUnused();
    UnusedTagMatchesNothing(Tag(".dealBadge"));
    CollectNoMatch(AmazonPage, Tag(".dealBadge"), NonEmpty);
    UnusedTagMatchesNothing(Tag(".savingsPercentage"));
    assert FirstText(AmazonPage, {Tag(".savingsPercentage")}) == [];
    assert Trim([]) == [];
    BoxedBadges();
    UnusedTagMatchesNothing(Tag(".promoPriceBlockMessage"));
    CollectNoMatch(AmazonPage, Tag(".promoPriceBlockMessage"), NonEmpty);
  }

  /** On amazon.in the deals are scanned too; the badge "Deal of the Day" is skipped, because "deal" is matched case-sensitively. */
  lemma AmazonExample()
    ensures Extract(AmazonHost, AmazonPage) == Success(ScrapedFacts("Widget Pro", 18999, ImageSource, ["Top deal"]))
  {
    assert Lookup(AmazonHost) == Some(AmazonRules);
    AmazonPrice();
    AmazonTitle();
    AmazonImage();
    AmazonDealsExample();
    ExtractSucceeds(AmazonHost, AmazonPage, AmazonRules, 18999, "Widget Pro", ImageSource);
  }

  // ---------------------------------------------------------------------------
  // One tracking request, end to end
  // ---------------------------------------------------------------------------

  const ProductUrl := "https://amazon.in/dp/B0EXAMPLE"

  /**
    With the corrected validation (`PostTrack`), the form's request for the
    amazon.in page, on an empty database: the
    product is stored with the scraped title, price, image and deals and the
    user's threshold, its history is the single observed price, and the
    delete as written cannot remove it.
  */
  lemma TrackingExample(syn: Syntax, web: Web)
    requires syn.isUrl(ProductUrl) && syn.isEmail("buyer@example.com")
    requires web.fetch(ProductUrl) == Success(AmazonPage) && web.hostname(ProductUrl) == AmazonHost
    ensures var b := Body(Given(ProductUrl), Absent, Absent, Absent, Given("buyer@example.com"), Given(15000), Absent);
      var (resp, s') := PostTrack(Empty, b, syn, web, 100, 101);
      && resp.Tracked?
      && resp.product.title == "Widget Pro" && resp.product.currentPrice == 18999 && resp.product.imageUrl == ImageSource
      && resp.product.priceThreshold == Some(15000) && resp.product.lastChecked == 100
      && resp.product.deals.Some? && Json.ParseStringArray(resp.product.deals.value) == Success(["Top deal"])
      && |GetPriceHistory(s', resp.product.id)| == 1
      && GetPriceHistory(s', resp.product.id)[0].price == 18999
      && GetPriceHistory(s', resp.product.id)[0].timestamp == 101
      && DeleteProductAsWritten(s', resp.product.id).Failure?
  {
    var b := Body(Given(ProductUrl), Absent, Absent, Absent, Given("buyer@example.com"), Given(15000), Absent);
    EmptyValid();
    FormRequestRefused(Empty, ProductUrl, "buyer@example.com", 15000, syn, web, 100, 101);
    AmazonExample();
    assert Scrape(ProductUrl, web) == Success(ScrapedFacts("Widget Pro", 18999, ImageSource, ["Top deal"]));
    var facts := ScrapedFacts("Widget Pro", 18999, ImageSource, ["Top deal"]);
    var (resp, s') := PostTrack(Empty, b, syn, web, 100, 101);
    assert TrackedAsScraped(Empty, s', resp.product, ProductUrl, "buyer@example.com", 15000, facts, 100, 101);
    TrackedHistoryIsFirstObservation(Empty, s', resp.product, ProductUrl, "buyer@example.com", 15000, facts, 100, 101);
    TrackedProductUndeletable(Empty, s', resp.product, ProductUrl, "buyer@example.com", 15000, facts, 100, 101);
  }
}

=== FILE: schema.dfy ===
/**
  shared/schema.ts: the `products` and `price_history` rows, the PostgreSQL
  column widths, and the `insertProductSchema` request validation.
*/
module Schema {
  import opened Wrappers

  /** A `timestamp` value: milliseconds, as `new Date()` yields them. */
  type Time = nat

  /** PostgreSQL `integer` (and `serial`) columns are 32-bit signed. */
  const Int4Min := -0x8000_0000
  const Int4Max := 0x7FFF_FFFF

  predicate FitsInt4(n: int) {
    Int4Min <= n <= Int4Max
  }

  /**
    A row of `products`. The not-null columns are plain values; only
    `price_threshold` and `deals` (JSON text) may be null.
  */
  datatype Product = Product(
    id: nat,
    url: string,
    title: string,
    currentPrice: int,
    imageUrl: string,
    email: string,
    priceThreshold: Option<int>,
    lastChecked: Time,
    deals: Option<string>)

  /** A row of `price_history`; `productId` references `products.id`. */
  datatype HistoryRow = HistoryRow(id: nat, productId: nat, price: int, timestamp: Time)

  // ---------------------------------------------------------------------------
  // Request validation (zod)
  // ---------------------------------------------------------------------------

  /** One property of a JSON request body, as zod classifies it. */
  datatype Field<T> = Absent | Null | Given(value: T) | Mistyped

  /** The properties of a request body that the insert schema looks at; any others are stripped. */
  datatype Body = Body(
    url: Field<string>,
    title: Field<string>,
    currentPrice: Field<int>,
    imageUrl: Field<string>,
    email: Field<string>,
    priceThreshold: Field<int>,
    deals: Field<string>)

  /** The request properties validation can complain about, named after their columns. */
  datatype Column = Url | Title | CurrentPrice | ImageUrl | Email | PriceThreshold | Deals

  /** The grammars of `z.string().url()` and `z.string().email()`, which the model does not fix. */
  datatype Syntax = Syntax(isUrl: string -> bool, isEmail: string -> bool)

  /**
    The rule for one column: `url` and `email` must be well-formed strings,
    `priceThreshold` a number of at least 0, the other not-null columns
    present, and the nullable `deals` absent, null or a string.
  */
  predicate Accepts(b: Body, syn: Syntax, c: Column): (r: bool)
    ensures c != Deals && r ==> Supplied(b, c)
    ensures c in [Title, CurrentPrice, ImageUrl] ==> (r <==> Supplied(b, c))
    ensures c == Deals ==> (r <==> !b.deals.Mistyped?)
  {
    match c
    case Url => b.url.Given? && syn.isUrl(b.url.value)
    case Title => b.title.Given?
    case CurrentPrice => b.currentPrice.Given?
    case ImageUrl => b.imageUrl.Given?
    case Email => b.email.Given? && syn.isEmail(b.email.value)
    case PriceThreshold => b.priceThreshold.Given? && b.priceThreshold.value >= 0
    case Deals => !b.deals.Mistyped?
  }

  /** The body carries a value of the column's type: neither absent, nor null, nor mistyped. */
  predicate Supplied(b: Body, c: Column) {
    match c
    case Url => b.url.Given?
    case Title => b.title.Given?
    case CurrentPrice => b.currentPrice.Given?
    case ImageUrl => b.imageUrl.Given?
    case Email => b.email.Given?
    case PriceThreshold => b.priceThreshold.Given?
    case Deals => b.deals.Given?
  }

  /**
    The columns `insertProductSchema` checks: every column of `products`
    except `id` and `lastChecked`, in the table's order.
  */
  const InsertColumns: seq<Column> := [Url, Title, CurrentPrice, ImageUrl, Email, PriceThreshold, Deals]

  /** The columns of `cols` whose rule the body breaks, in order. */
  function Issues(b: Body, syn: Syntax, cols: seq<Column>): (r: seq<Column>)
    ensures forall c :: c in r <==> c in cols && !Accepts(b, syn, c)
  {
    if cols == [] then []
    else (if Accepts(b, syn, cols[0]) then [] else [cols[0]]) + Issues(b, syn, cols[1..])
  }

  /** The insert schema has a rule for every column a request can name. */
  lemma EveryColumnChecked()
    ensures forall c: Column :: c in InsertColumns
  {
    forall c: Column ensures c in InsertColumns {
      match c
      case Url => assert InsertColumns[0] == c;
      case Title => assert InsertColumns[1] == c;
      case CurrentPrice => assert InsertColumns[2] == c;
      case ImageUrl => assert InsertColumns[3] == c;
      case Email => assert InsertColumns[4] == c;
      case PriceThreshold => assert InsertColumns[5] == c;
      case Deals => assert InsertColumns[6] == c;
    }
  }

  /** The validated request: what `safeParse` returns as `data`. */
  datatype InsertProduct = InsertProduct(
    url: string,
    title: string,
    currentPrice: int,
    imageUrl: string,
    email: string,
    priceThreshold: int,
    deals: Option<string>)

  /** `insertProductSchema.safeParse(body)`: the data, or the list of failing columns. */
  function ValidateInsert(b: Body, syn: Syntax): (r: Result<InsertProduct, seq<Column>>)
    ensures r.Success? <==> forall c :: c in InsertColumns ==> Accepts(b, syn, c)
    ensures r.Failure? ==> r.error != [] && forall c :: c in r.error <==> c in InsertColumns && !Accepts(b, syn, c)
    ensures r.Success? ==> syn.isUrl(r.value.url) && syn.isEmail(r.value.email) && r.value.priceThreshold >= 0
    ensures r.Success? ==>
      && b.url == Given(r.value.url) && b.title == Given(r.value.title)
      && b.currentPrice == Given(r.value.currentPrice) && b.imageUrl == Given(r.value.imageUrl)
      && b.email == Given(r.value.email) && b.priceThreshold == Given(r.value.priceThreshold)
  {
    var issues := Issues(b, syn, InsertColumns);
    if issues != [] then
      assert issues[0] in issues;
      Failure(issues)
    else
      EveryColumnChecked();
      assert Accepts(b, syn, Url) && Accepts(b, syn, Title) && Accepts(b, syn, CurrentPrice);
      assert Accepts(b, syn, ImageUrl) && Accepts(b, syn, Email) && Accepts(b, syn, PriceThreshold);
      Success(InsertProduct(
        b.url.value, b.title.value, b.currentPrice.value, b.imageUrl.value, b.email.value, b.priceThreshold.value,
        if b.deals.Given? then Some(b.deals.value) else None))
  }

  /** A negative threshold is rejected, and names the threshold among the issues. */
  lemma NegativeThresholdRejected(b: Body, syn: Syntax)
    requires b.priceThreshold.Given? && b.priceThreshold.value < 0
    ensures ValidateInsert(b, syn).Failure? && PriceThreshold in ValidateInsert(b, syn).error
  {
    assert PriceThreshold in InsertColumns;
  }

  /** A threshold of 0 is accepted: validation then depends on the other columns only. */
  lemma ZeroThresholdAccepted(b: Body, syn: Syntax)
    requires b.priceThreshold == Given(0)
    ensures ValidateInsert(b, syn).Failure? ==> PriceThreshold !in ValidateInsert(b, syn).error
  {
  }

  // ---------------------------------------------------------------------------
  // The request the tracking form sends
  // ---------------------------------------------------------------------------

  /**
    The columns a tracking request has to supply: the ones that come from the
    user. Title, price, image and deals come from the scraped page.
  */
  const TrackColumns: seq<Column> := [Url, Email, PriceThreshold]

  datatype TrackRequest = TrackRequest(url: string, email: string, priceThreshold: int)

  /** Validation of a tracking request: only the user-supplied columns are checked. */
  function ValidateTrack(b: Body, syn: Syntax): (r: Result<TrackRequest, seq<Column>>)
    ensures r.Success? <==> forall c :: c in TrackColumns ==> Accepts(b, syn, c)
    ensures r.Failure? ==> r.error != [] && forall c :: c in r.error <==> c in TrackColumns && !Accepts(b, syn, c)
    ensures r.Success? ==>
      && b.url == Given(r.value.url) && syn.isUrl(r.value.url)
      && b.email == Given(r.value.email) && syn.isEmail(r.value.email)
      && b.priceThreshold == Given(r.value.priceThreshold) && r.value.priceThreshold >= 0
  {
    var issues := Issues(b, syn, TrackColumns);
    if issues != [] then
      assert issues[0] in issues;
      Failure(issues)
    else
      assert Url in TrackColumns && Email in TrackColumns && PriceThreshold in TrackColumns;
      Success(TrackRequest(b.url.value, b.email.value, b.priceThreshold.value))
  }

  /**
    Every body the insert schema accepts is a valid tracking request with the
    same url, email and threshold; the converse fails exactly on the columns
    only the insert schema demands.
  */
  lemma InsertAcceptsOnlyTrackRequests(b: Body, syn: Syntax)
    ensures ValidateInsert(b, syn).Success? ==>
      var d := ValidateInsert(b, syn).value;
      ValidateTrack(b, syn) == Success(TrackRequest(d.url, d.email, d.priceThreshold))
    ensures ValidateTrack(b, syn).Success? && ValidateInsert(b, syn).Failure? ==>
      forall c :: c in ValidateInsert(b, syn).error ==> c in [Title, CurrentPrice, ImageUrl, Deals]
  {
    if ValidateInsert(b, syn).Success? {
      forall c | c in TrackColumns ensures Accepts(b, syn, c) {
        assert c in InsertColumns;
      }
    }
  }

  /**
    The body the tracking form posts (url, email and threshold only) fails
    the insert schema on exactly the title, price and image columns, however
    well-formed its three values are.
  */
  lemma FormBodyFailsInsert(url: string, email: string, threshold: int, syn: Syntax)
    requires syn.isUrl(url) && syn.isEmail(email) && threshold >= 0
    ensures var b := Body(Given(url), Absent, Absent, Absent, Given(email), Given(threshold), Absent);
      && ValidateInsert(b, syn).Failure?
      && (forall c :: c in ValidateInsert(b, syn).error <==> c == Title || c == CurrentPrice || c == ImageUrl)
      && ValidateTrack(b, syn) == Success(TrackRequest(url, email, threshold))
  {
    var b := Body(Given(url), Absent, Absent, Absent, Given(email), Given(threshold), Absent);
    EveryColumnChecked();
    assert ValidateInsert(b, syn).Failure? by {
      assert !Accepts(b, syn, Title);
    }
    assert forall c :: c in ValidateInsert(b, syn).error <==> c == Title || c == CurrentPrice || c == ImageUrl by {
      forall c: Column ensures !Accepts(b, syn, c) <==> c == Title || c == CurrentPrice || c == ImageUrl {
      }
    }
  }

}

=== FILE: scraper.dfy ===
/**
  `scrapeProduct` of server/routes.ts: the retailer table, extraction of
  price, title, image and deals from a fetched page, and the collapse of
  every failure into one message.
*/
module Scraper {
  import opened Wrappers
  import opened Text
  import opened Page

  /** The selectors of one retailer (the `retailers` entries). */
  datatype Ruleset = Ruleset(price: Selector, title: Selector, image: Selector)

  const AmazonHost := "amazon.in"
  const FlipkartHost := "flipkart.com"

  const AmazonRules := Ruleset(
    {Tag(".a-price-whole"), Tag("#priceblock_ourprice"), Tag(".a-offscreen")},
    {Tag("#productTitle")},
    {Tag("#landingImage"), Tag("#imgBlkFront")})

  const FlipkartRules := Ruleset(
    {Tag("._30jeq3"), Tag("._1vC4OE")},
    {Tag(".B_NuCI")},
    {Tag("._396cs4"), Tag("._2r_T1I")})

  /** The retailer table, keyed by exact hostname. */
  const Retailers: map<string, Ruleset> := map[AmazonHost := AmazonRules, FlipkartHost := FlipkartRules]

  /** `retailers[domain]`: only the two exact hostnames have rulesets. */
  function Lookup(host: string): (r: Option<Ruleset>)
    ensures r.Some? <==> host == AmazonHost || host == FlipkartHost
  {
    if host in Retailers then Some(Retailers[host]) else None
  }

  /** The facts a successful scrape returns. */
  datatype ScrapedFacts = ScrapedFacts(title: string, currentPrice: nat, imageUrl: string, deals: seq<string>)

  /** The distinct errors thrown inside `scrapeProduct`, before they are replaced by one generic error. */
  datatype ExtractionError = UnsupportedRetailer | PriceNotFound | TitleNotFound | ImageNotFound {
    function Message(): string {
      match this
      case UnsupportedRetailer => "Unsupported retailer. Please use Amazon.in or Flipkart.com"
      case PriceNotFound => "Could not extract price from the page"
      case TitleNotFound => "Could not extract title from the page"
      case ImageNotFound => "Could not extract image URL from the page"
    }
  }

  /**
    `parseInt(text.trim().replace(/[^0-9]/g, ''))`, kept only when truthy:
    the digits of the text read as one decimal number, rejected when there are
    no digits (NaN) or all of them are '0'.
  */
  function PriceFromText(text: string): (r: Option<nat>)
    ensures r.Some? ==> r.value > 0 && r.value == DecimalValue(Digits(text))
    ensures r.Some? <==> exists k :: 0 <= k < |Digits(text)| && Digits(text)[k] != '0'
  {
    DigitsIgnoreTrim(text);
    var ds := Digits(Trim(text));
    DecimalValueZero(ds);
    if ds == [] then None
    else
      var v := DecimalValue(ds);
      if v == 0 then None else Some(v)
  }

  const SavingsTag: Selector := {Tag(".savingsPercentage")}

  /**
    The trimmed text of the first `.savingsPercentage`, kept when it is not
    blank. Only the first match is read, even when a later one has text.
  */
  function SavingsBadge(doc: Document): (r: seq<string>)
    ensures |r| <= 1
    ensures r != [] ==> r[0] != [] && Trim(r[0]) == r[0]
    ensures r != [] <==> exists i :: IsFirstMatch(doc, SavingsTag, i) && !AllSpace(doc[i].text)
    ensures r != [] ==> exists i :: IsFirstMatch(doc, SavingsTag, i) && r[0] == Trim(doc[i].text)
  {
    var raw := FirstText(doc, SavingsTag);
    FirstTextTrimmed(doc, SavingsTag);
    TrimIdempotent(raw);
    KeepNonBlank(Trim(raw))
  }

  /** The one-entry list of a trimmed text, or nothing when it is empty. */
  function KeepNonBlank(t: string): (r: seq<string>)
    ensures |r| <= 1
    ensures r != [] <==> t != []
    ensures r != [] ==> r[0] == t
  {
    if t != [] then [t] else []
  }

  /**
    The deals of an amazon.in page, in the order the four scans run: deal
    badges, the first savings percentage, boxed badges mentioning "deal", and
    promotion messages.
  */
  function AmazonDeals(doc: Document): (r: seq<string>)
    ensures forall t :: t in r <==>
      || SomeElementYields(doc, Tag(".dealBadge"), NonEmpty, t)
      || t in SavingsBadge(doc)
      || SomeElementYields(doc, Within(".a-box-inner", ".a-badge-text"), Mentioning("deal"), t)
      || SomeElementYields(doc, Tag(".promoPriceBlockMessage"), NonEmpty, t)
  {
    Collect(doc, Tag(".dealBadge"), NonEmpty)
    + SavingsBadge(doc)
    + Collect(doc, Within(".a-box-inner", ".a-badge-text"), Mentioning("deal"))
    + Collect(doc, Tag(".promoPriceBlockMessage"), NonEmpty)
  }

  /** Every deal is non-empty and already trimmed. */
  lemma AmazonDealsWellFormed(doc: Document)
    ensures forall k :: 0 <= k < |AmazonDeals(doc)| ==> AmazonDeals(doc)[k] != [] && Trim(AmazonDeals(doc)[k]) == AmazonDeals(doc)[k]
  {
    var a := Collect(doc, Tag(".dealBadge"), NonEmpty);
    var b := SavingsBadge(doc);
    var c := Collect(doc, Within(".a-box-inner", ".a-badge-text"), Mentioning("deal"));
    var d := Collect(doc, Tag(".promoPriceBlockMessage"), NonEmpty);
    var all := AmazonDeals(doc);
    assert all == a + b + c + d;
    forall k | 0 <= k < |all|
      ensures all[k] != [] && Trim(all[k]) == all[k]
    {
      if k < |a| {
        assert all[k] == a[k];
      } else if k < |a| + |b| {
        assert all[k] == b[k - |a|];
      } else if k < |a| + |b| + |c| {
        assert all[k] == c[k - |a| - |b|];
      } else {
        assert all[k] == d[k - |a| - |b| - |c|];
      }
    }
  }

  /** Every boxed badge kept as a deal mentions "deal", case-sensitively. */
  lemma BoxedBadgesMentionDeal(doc: Document, t: string)
    requires t in Collect(doc, Within(".a-box-inner", ".a-badge-text"), Mentioning("deal"))
    ensures Contains(t, "deal")
  {
    var c := Collect(doc, Within(".a-box-inner", ".a-badge-text"), Mentioning("deal"));
    var k :| 0 <= k < |c| && c[k] == t;
  }

  /**
    Extraction from a fetched page, in the order of the source: ruleset,
    price, title, image, then deals (which never fail).
  */
  function Extract(host: string, doc: Document): (r: Result<ScrapedFacts, ExtractionError>)
    ensures r.Success? ==> Lookup(host).Some?
    ensures r.Success? ==> r.value.currentPrice > 0 && r.value.title != [] && r.value.imageUrl != []
    ensures r.Success? && host != AmazonHost ==> r.value.deals == []
    ensures r == Failure(UnsupportedRetailer) <==> Lookup(host).None?
  {
    match Lookup(host)
    case None => Failure(UnsupportedRetailer)
    case Some(rules) =>
      var priceText := FirstText(doc, rules.price);
      match PriceFromText(priceText)
      case None => Failure(PriceNotFound)
      case Some(price) =>
        var title := Trim(FirstText(doc, rules.title));
        if title == [] then Failure(TitleNotFound)
        else match FirstAttr(doc, rules.image, "src")
          case None => Failure(ImageNotFound)
          case Some(imageUrl) =>
            if imageUrl == [] then Failure(ImageNotFound)
            else
              var deals := if host == AmazonHost then AmazonDeals(doc) else [];
              Success(ScrapedFacts(title, price, imageUrl, deals))
  }

  /**
    The converse of `ExtractSucceeds`: a successful extraction took its price,
    title and image from the first matches of the host's ruleset, and its
    deals from the amazon.in scans alone.
  */
  lemma ExtractReadsFirstMatches(host: string, doc: Document)
    requires Extract(host, doc).Success?
    ensures var r := Extract(host, doc).value; var rules := Lookup(host).value;
      && PriceFromText(FirstText(doc, rules.price)) == Some(r.currentPrice)
      && Trim(FirstText(doc, rules.title)) == r.title
      && FirstAttr(doc, rules.image, "src") == Some(r.imageUrl)
      && r.deals == (if host == AmazonHost then AmazonDeals(doc) else [])
  {
  }

  /**
    When extraction succeeds, and with what: exactly when the host has a
    ruleset, the first price match reads as a non-zero number, the first
    title match has non-blank text and the first image match a non-empty
    `src`.
  */
  lemma ExtractSucceeds(host: string, doc: Document, rules: Ruleset, price: nat, title: string, image: string)
    requires Lookup(host) == Some(rules)
    requires PriceFromText(FirstText(doc, rules.price)) == Some(price)
    requires Trim(FirstText(doc, rules.title)) == title && title != []
    requires FirstAttr(doc, rules.image, "src") == Some(image) && image != []
    ensures Extract(host, doc) == Success(ScrapedFacts(title, price, image, if host == AmazonHost then AmazonDeals(doc) else []))
  {
  }

  /**
    Why extraction fails, in the order the checks run: no ruleset, then no
    usable price, then an empty title, then a missing or empty image source.
  */
  lemma ExtractFailures(host: string, doc: Document)
    ensures Lookup(host).Some? ==>
      var rules := Lookup(host).value;
      && (Extract(host, doc) == Failure(PriceNotFound) <==> PriceFromText(FirstText(doc, rules.price)).None?)
      && (Extract(host, doc) == Failure(TitleNotFound) <==>
            PriceFromText(FirstText(doc, rules.price)).Some? && Trim(FirstText(doc, rules.title)) == [])
      && (Extract(host, doc) == Failure(ImageNotFound) <==>
            PriceFromText(FirstText(doc, rules.price)).Some? && Trim(FirstText(doc, rules.title)) != []
            && (FirstAttr(doc, rules.image, "src").None? || FirstAttr(doc, rules.image, "src").value == []))
  {
  }

  /** A page without any match of the price selectors never yields a product. */
  lemma MissingPriceFails(host: string, doc: Document)
    requires Lookup(host).Some? && NoMatch(doc, Lookup(host).value.price)
    ensures Extract(host, doc) == Failure(PriceNotFound)
  {
    assert Digits([]) == [];
  }

  // ---------------------------------------------------------------------------
  // scrapeProduct: fetch, extract, and collapse every error into one
  // ---------------------------------------------------------------------------

  /** A transport failure or non-2xx response of the page fetch. */
  datatype FetchError = FetchError(cause: string)

  /**
    What `scrapeProduct` sees of the outside world: the GET of a URL (the
    network is not modelled) and the hostname the URL parser reports. That
    parser lower-cases ASCII hostnames, so "Amazon.in" in a URL arrives here
    as "amazon.in".
  */
  datatype Web = Web(fetch: string -> Result<Document, FetchError>, hostname: string -> string)

  const ScrapeFailedMessage := "Failed to scrape product details. Please check the URL and try again."

  /** The one error `scrapeProduct` throws, whatever went wrong inside it. */
  datatype ScrapeError = ScrapeError(message: string)

  /**
    `scrapeProduct(url)`: the page is fetched first and the ruleset looked up
    afterwards, so an unsupported hostname is still fetched. Every failure,
    fetch or extraction, surfaces as the same message.
  */
  function Scrape(url: string, web: Web): (r: Result<ScrapedFacts, ScrapeError>)
    ensures r.Failure? ==> r.error.message == ScrapeFailedMessage
    ensures r.Success? <==> web.fetch(url).Success? && Extract(web.hostname(url), web.fetch(url).value).Success?
    ensures r.Success? ==> r.value == Extract(web.hostname(url), web.fetch(url).value).value
  {
    match web.fetch(url)
    case Failure(_) => Failure(ScrapeError(ScrapeFailedMessage))
    case Success(doc) =>
      match Extract(web.hostname(url), doc)
      case Failure(_) => Failure(ScrapeError(ScrapeFailedMessage))
      case Success(facts) => Success(facts)
  }

  /**
    The specific extraction messages never reach the caller: an extraction
    error on a fetched page surfaces as the generic failure, whose message
    differs from each of the four specific ones.
  */
  lemma ScrapeHidesExtractionErrors(url: string, web: Web, e: ExtractionError)
    ensures web.fetch(url).Success? && Extract(web.hostname(url), web.fetch(url).value) == Failure(e) ==>
      Scrape(url, web) == Failure(ScrapeError(ScrapeFailedMessage))
    ensures Scrape(url, web).Failure? ==> Scrape(url, web).error.message != e.Message()
  {
    MessagesDiffer(e);
  }

  lemma MessagesDiffer(e: ExtractionError)
    ensures e.Message() != ScrapeFailedMessage
  {
    assert |ScrapeFailedMessage| == 69;
    match e
    case UnsupportedRetailer => assert |e.Message()| == 58;
    case PriceNotFound => assert |e.Message()| == 37;
    case TitleNotFound => assert |e.Message()| == 37;
    case ImageNotFound => assert |e.Message()| == 41;
  }

  // ---------------------------------------------------------------------------
  // Worked examples
  // ---------------------------------------------------------------------------

  /** A price text whose digits start with a non-zero digit reads as the value of those digits. */
  lemma PriceOfDigits(text: string, ds: string)
    requires Digits(text) == ds && ds != [] && ds[0] != '0'
    ensures PriceFromText(text) == Some(DecimalValue(ds))
  {
  }

  lemma FiveDigitValue()
    ensures DecimalValue("18999") == 18999
  {
    assert DecimalValue("1") == 1;
    assert "18"[..1] == "1";
    assert DecimalValue("18") == 18;
    assert "189"[..2] == "18";
    assert DecimalValue("189") == 189;
    assert "1899"[..3] == "189";
    assert DecimalValue("1899") == 1899;
    assert "18999"[..4] == "1899";
  }

  lemma SevenDigitValue()
    ensures DecimalValue("1549900") == 1549900
  {
    assert DecimalValue("1") == 1;
    assert "15"[..1] == "1";
    assert DecimalValue("15") == 15;
    assert "154"[..2] == "15";
    assert DecimalValue("154") == 154;
    assert "1549"[..3] == "154";
    assert DecimalValue("1549") == 1549;
    assert "15499"[..4] == "1549";
    assert DecimalValue("15499") == 15499;
    assert "154990"[..5] == "15499";
    assert DecimalValue("154990") == 154990;
    assert "1549900"[..6] == "154990";
  }

  /** Currency signs, grouping commas and the decimal point are all dropped: "₹18,999" reads as 18999. */
  lemma RupeePriceExample()
    ensures PriceFromText("₹18,999") == Some(18999)
  {
    assert Digits("₹18,999") == "18999" by {
      assert "₹18,999" == "₹18," + "999";
      DigitsAppend("₹18,", "999");
    }
    PriceOfDigits("₹18,999", "18999");
    FiveDigitValue();
  }

  /** The paise are not split off: "₹15,499.00" reads as 1549900. */
  lemma RupeeGroupDigits()
    ensures Digits("₹15,") == "15"
  {
  }

  lemma PaiseDigits()
    ensures Digits("499.00") == "49900"
  {
  }

  lemma DecimalPriceDigits()
    ensures Digits("₹15,499.00") == "1549900"
  {
    assert "₹15,499.00" == "₹15," + "499.00";
    DigitsAppend("₹15,", "499.00");
    RupeeGroupDigits();
    PaiseDigits();
    assert "15" + "49900" == "1549900";
  }

  lemma DecimalPointExample()
    ensures PriceFromText("₹15,499.00") == Some(1549900)
  {
    DecimalPriceDigits();
    PriceOfDigits("₹15,499.00", "1549900");
    SevenDigitValue();
  }

  /**
    Lookup is by exact hostname: a subdomain such as "www." or "m.", the
    fully qualified form with its trailing dot, and a lookalike suffix are
    not supported.
  */
  lemma HostVariantsUnsupported(doc: Document)
    ensures Extract("www.amazon.in", doc) == Failure(UnsupportedRetailer)
    ensures Extract("m.amazon.in", doc) == Failure(UnsupportedRetailer)
    ensures Extract("amazon.in.", doc) == Failure(UnsupportedRetailer)
    ensures Extract("flipkart.com.evil.example", doc) == Failure(UnsupportedRetailer)
  {
  }
}

=== FILE: storage.dfy ===
/**
  server/storage.ts (`DatabaseStorage`) over the tables of shared/schema.ts,
  as an in-memory pair of tables. Each operation is a function from the
  state before to the state after; a database error leaves the state as it
  was.
*/
module Storage {
  import opened Wrappers
  import opened Schema
  import Json

  /** The two tables and the next values of their `serial` id sequences. */
  datatype Store = Store(products: seq<Product>, history: seq<HistoryRow>, nextProductId: nat, nextHistoryId: nat)

  /** A freshly created database. */
  const Empty := Store([], [], 1, 1)

  /** The database errors the modelled statements can raise. */
  datatype StorageError =
    | OutOfRange(column: string)    // a value does not fit a 32-bit `integer` column
    | ProductStillReferenced        // deleting a product that `price_history` rows reference
    | UnknownProduct                // inserting history for a product id that does not exist
  {
    /** Stand-ins for PostgreSQL's texts, which also name the offending value or constraint. */
    function Message(): string {
      match this
      case OutOfRange(_) => "value out of range for type integer"
      case ProductStillReferenced => "update or delete on table \"products\" violates foreign key constraint"
      case UnknownProduct => "insert or update on table \"price_history\" violates foreign key constraint"
    }
  }

  function ProductIds(ps: seq<Product>): set<nat> {
    set p | p in ps :: p.id
  }

  function HistoryIds(hs: seq<HistoryRow>): set<nat> {
    set h | h in hs :: h.id
  }

  predicate ProductFits(p: Product) {
    FitsInt4(p.currentPrice) && (p.priceThreshold.Some? ==> FitsInt4(p.priceThreshold.value))
  }

  ghost predicate DistinctProductIds(ps: seq<Product>) {
    forall i, j :: 0 <= i < j < |ps| ==> ps[i].id != ps[j].id
  }

  ghost predicate DistinctHistoryIds(hs: seq<HistoryRow>) {
    forall i, j :: 0 <= i < j < |hs| ==> hs[i].id != hs[j].id
  }

  /**
    The database's integrity: primary keys unique and below their sequence,
    integer columns within 32 bits, and every history row referencing an
    existing product (the foreign key of `price_history.product_id`).
  */
  ghost predicate Valid(s: Store) {
    && 1 <= s.nextProductId && 1 <= s.nextHistoryId
    && (forall p :: p in s.products ==> 1 <= p.id < s.nextProductId && ProductFits(p))
    && DistinctProductIds(s.products)
    && (forall h :: h in s.history ==> 1 <= h.id < s.nextHistoryId && FitsInt4(h.price))
    && DistinctHistoryIds(s.history)
    && (forall h :: h in s.history ==> h.productId in ProductIds(s.products))
  }

  lemma EmptyValid()
    ensures Valid(Empty)
  {
  }

  // ---------------------------------------------------------------------------
  // Deals column
  // ---------------------------------------------------------------------------

  /** The `deals` value handed to storage: undefined or null, a string, or an array of strings. */
  datatype DealsValue = NoDeals | DealsText(text: string) | DealsList(items: seq<string>)

  /**
    `deals ? JSON.stringify(deals) : null`. Any array is truthy, the empty
    one included, so an array is always stored, as text that decodes back to
    the same list; only a missing value or the empty string store null.
  */
  function EncodeDeals(d: DealsValue): (r: Option<string>)
    ensures r.None? <==> d.NoDeals? || d == DealsText([])
    ensures d.DealsList? ==> r.Some? && Json.ParseStringArray(r.value) == Success(d.items)
  {
    match d
    case NoDeals => None
    case DealsText(t) => if t == [] then None else Some(Json.Quote(t))
    case DealsList(xs) =>
      Json.StringifyRoundTrip(xs);
      Some(Json.Stringify(xs))
  }

  /** An empty deal list is stored as the text `[]`, not as null. */
  lemma EmptyDealsStoredAsArray()
    ensures EncodeDeals(DealsList([])) == Some("[]")
  {
    assert Json.JoinQuoted([]) == [];
    assert Json.Stringify([]) == "[]";
    assert EncodeDeals(DealsList([])) == Some(Json.Stringify([]));
  }

  // ---------------------------------------------------------------------------
  // products
  // ---------------------------------------------------------------------------

  /** The values `createProduct` inserts; `id` and `lastChecked` are supplied by storage. */
  datatype NewProduct = NewProduct(
    url: string,
    title: string,
    currentPrice: int,
    imageUrl: string,
    email: string,
    priceThreshold: Option<int>,
    deals: DealsValue)

  function FindProduct(ps: seq<Product>, id: nat): (r: Option<Product>)
    ensures r.Some? <==> id in ProductIds(ps)
    ensures r.Some? ==> r.value in ps && r.value.id == id
  {
    if ps == [] then None
    else if ps[0].id == id then Some(ps[0])
    else
      assert ProductIds(ps) == {ps[0].id} + ProductIds(ps[1..]) by {
        assert ps == [ps[0]] + ps[1..];
      }
      FindProduct(ps[1..], id)
  }

  /** The row `getProduct` finds sits at some position of the table. */
  lemma FoundAmongRows(ps: seq<Product>, id: nat)
    ensures FindProduct(ps, id).Some? ==>
      exists i :: 0 <= i < |ps| && ps[i].id == id && FindProduct(ps, id).value == ps[i]
  {
    if FindProduct(ps, id).Some? {
      var i :| 0 <= i < |ps| && ps[i] == FindProduct(ps, id).value;
    }
  }

  /** `getProducts`: every row of `products`, each once; the order is not part of the promise. */
  function GetProducts(s: Store): (r: seq<Product>)
    ensures multiset(r) == multiset(s.products)
  {
    s.products
  }

  /** `getProduct(id)`: the row with that id, or nothing. */
  function GetProduct(s: Store, id: nat): (r: Option<Product>)
    ensures r.Some? <==> id in ProductIds(s.products)
    ensures r.Some? ==> r.value in s.products && r.value.id == id
  {
    FindProduct(s.products, id)
  }

  /** With unique ids, the row `getProduct` returns is the only one with that id, and every listed row is found by its id. */
  lemma GetProductUnique(s: Store, p: Product)
    requires Valid(s)
    requires p in GetProducts(s)
    ensures GetProduct(s, p.id) == Some(p)
  {
    var q := GetProduct(s, p.id).value;
    var i :| 0 <= i < |s.products| && s.products[i] == p;
    var j :| 0 <= j < |s.products| && s.products[j] == q;
    if i < j {
      assert false;
    } else if j < i {
      assert false;
    }
  }

  /**
    `createProduct`: inserts one row with a fresh id and `lastChecked` set to
    the clock; every existing row is kept as it was. Fails, writing nothing,
    when a price does not fit its 32-bit column.
  */
  function CreateProduct(s: Store, np: NewProduct, now: Time): (r: Result<(Product, Store), StorageError>)
    requires Valid(s)
    ensures r.Success? <==> FitsInt4(np.currentPrice) && (np.priceThreshold.Some? ==> FitsInt4(np.priceThreshold.value))
    ensures r.Success? ==>
      var p := r.value.0;
      && p.id !in ProductIds(s.products)
      && p.url == np.url && p.title == np.title && p.currentPrice == np.currentPrice
      && p.imageUrl == np.imageUrl && p.email == np.email && p.priceThreshold == np.priceThreshold
      && p.lastChecked == now && p.deals == EncodeDeals(np.deals)
    ensures r.Success? ==> r.value.1.products == s.products + [r.value.0] && r.value.1.history == s.history
    ensures r.Success? ==> Valid(r.value.1)
  {
    if !FitsInt4(np.currentPrice) then Failure(OutOfRange("current_price"))
    else if np.priceThreshold.Some? && !FitsInt4(np.priceThreshold.value) then Failure(OutOfRange("price_threshold"))
    else
      var p := Product(s.nextProductId, np.url, np.title, np.currentPrice, np.imageUrl, np.email,
                       np.priceThreshold, now, EncodeDeals(np.deals));
      var s' := s.(products := s.products + [p], nextProductId := s.nextProductId + 1);
      assert ProductIds(s'.products) == ProductIds(s.products) + {p.id};
      Success((p, s'))
  }

  /** The columns an update may set; `None` leaves a column as it is. `deals` is always written. */
  datatype Patch = Patch(
    url: Option<string>,
    title: Option<string>,
    currentPrice: Option<int>,
    imageUrl: Option<string>,
    email: Option<string>,
    priceThreshold: Option<Option<int>>,
    lastChecked: Option<Time>,
    deals: DealsValue)

  function Patched(p: Product, u: Patch): Product {
    Product(
      p.id,
      if u.url.Some? then u.url.value else p.url,
      if u.title.Some? then u.title.value else p.title,
      if u.currentPrice.Some? then u.currentPrice.value else p.currentPrice,
      if u.imageUrl.Some? then u.imageUrl.value else p.imageUrl,
      if u.email.Some? then u.email.value else p.email,
      if u.priceThreshold.Some? then u.priceThreshold.value else p.priceThreshold,
      if u.lastChecked.Some? then u.lastChecked.value else p.lastChecked,
      EncodeDeals(u.deals))
  }

  /** Row `q` is row `p` after update `u`: given columns replaced, absent ones kept, deals rewritten. */
  ghost predicate UpdatedBy(p: Product, q: Product, u: Patch) {
    && q.id == p.id
    && q.url == (if u.url.Some? then u.url.value else p.url)
    && q.title == (if u.title.Some? then u.title.value else p.title)
    && q.currentPrice == (if u.currentPrice.Some? then u.currentPrice.value else p.currentPrice)
    && q.imageUrl == (if u.imageUrl.Some? then u.imageUrl.value else p.imageUrl)
    && q.email == (if u.email.Some? then u.email.value else p.email)
    && q.priceThreshold == (if u.priceThreshold.Some? then u.priceThreshold.value else p.priceThreshold)
    && q.lastChecked == (if u.lastChecked.Some? then u.lastChecked.value else p.lastChecked)
    && q.deals == EncodeDeals(u.deals)
  }

  predicate PatchFits(u: Patch) {
    && (u.currentPrice.Some? ==> FitsInt4(u.currentPrice.value))
    && (u.priceThreshold.Some? && u.priceThreshold.value.Some? ==> FitsInt4(u.priceThreshold.value.value))
  }

  function PatchRows(ps: seq<Product>, id: nat, u: Patch): (r: seq<Product>)
    ensures |r| == |ps|
    ensures forall i :: 0 <= i < |ps| ==> r[i] == if ps[i].id == id then Patched(ps[i], u) else ps[i]
  {
    seq(|ps|, i requires 0 <= i < |ps| => if ps[i].id == id then Patched(ps[i], u) else ps[i])
  }

  /** Patching keeps every row's id in place. */
  lemma PatchRowsKeepIds(ps: seq<Product>, id: nat, u: Patch)
    ensures ProductIds(PatchRows(ps, id, u)) == ProductIds(ps)
    ensures DistinctProductIds(ps) ==> DistinctProductIds(PatchRows(ps, id, u))
  {
    var qs := PatchRows(ps, id, u);
    forall x | x in ProductIds(ps) ensures x in ProductIds(qs) {
      var i :| 0 <= i < |ps| && ps[i].id == x;
      assert qs[i].id == x;
    }
  }

  lemma PatchRowsValid(s: Store, id: nat, u: Patch)
    requires Valid(s)
    requires PatchFits(u)
    ensures ProductIds(PatchRows(s.products, id, u)) == ProductIds(s.products)
    ensures Valid(s.(products := PatchRows(s.products, id, u)))
  {
    var ps := PatchRows(s.products, id, u);
    PatchRowsKeepIds(s.products, id, u);
    forall p | p in ps ensures 1 <= p.id < s.nextProductId && ProductFits(p) {
      var i :| 0 <= i < |ps| && ps[i] == p;
      assert s.products[i] in s.products;
    }
  }

  /**
    `updateProduct(id, update)`: only the row with that id changes, and only
    as the update says; the history table is untouched. Returns the updated
    row, or nothing when no row has that id.
  */
  function UpdateProduct(s: Store, id: nat, u: Patch): (r: Result<(Option<Product>, Store), StorageError>)
    requires Valid(s)
    ensures r.Success? <==> PatchFits(u)
    ensures r.Success? ==>
      var s' := r.value.1;
      && |s'.products| == |s.products| && s'.history == s.history
      && (forall i :: 0 <= i < |s.products| && s.products[i].id != id ==> s'.products[i] == s.products[i])
      && (forall i :: 0 <= i < |s.products| && s.products[i].id == id ==> UpdatedBy(s.products[i], s'.products[i], u))
      && Valid(s')
    ensures r.Success? ==> (r.value.0.Some? <==> id in ProductIds(s.products))
    ensures r.Success? && r.value.0.Some? ==>
      exists i :: 0 <= i < |s.products| && s.products[i].id == id && r.value.0.value == r.value.1.products[i]
  {
    if !PatchFits(u) then
      if u.currentPrice.Some? && !FitsInt4(u.currentPrice.value) then Failure(OutOfRange("current_price"))
      else Failure(OutOfRange("price_threshold"))
    else
      var s' := s.(products := PatchRows(s.products, id, u));
      PatchRowsValid(s, id, u);
      FoundAmongRows(s'.products, id);
      Success((GetProduct(s', id), s'))
  }

  // ---------------------------------------------------------------------------
  // price_history
  // ---------------------------------------------------------------------------

  /**
    `addPriceHistory(productId, price)`: appends exactly one row stamped with
    the clock; the products and all other history rows are unchanged. The
    foreign key rejects an unknown product.
  */
  function AddPriceHistory(s: Store, productId: nat, price: int, now: Time): (r: Result<Store, StorageError>)
    requires Valid(s)
    ensures r.Success? <==> FitsInt4(price) && productId in ProductIds(s.products)
    ensures r.Failure? && FitsInt4(price) ==> r.error == UnknownProduct
    ensures r.Success? ==>
      var s' := r.value;
      && s'.products == s.products
      && |s'.history| == |s.history| + 1 && s'.history[..|s.history|] == s.history
      && s'.history[|s.history|].productId == productId
      && s'.history[|s.history|].price == price
      && s'.history[|s.history|].timestamp == now
      && s'.history[|s.history|].id !in HistoryIds(s.history)
      && Valid(s')
  {
    if !FitsInt4(price) then Failure(OutOfRange("price"))
    else if productId !in ProductIds(s.products) then Failure(UnknownProduct)
    else
      var h := HistoryRow(s.nextHistoryId, productId, price, now);
      var s' := s.(history := s.history + [h], nextHistoryId := s.nextHistoryId + 1);
      assert s'.history[..|s.history|] == s.history;
      Success(s')
  }

  /** The history rows of one product, in table order. */
  function HistoryOf(hs: seq<HistoryRow>, productId: nat): (r: seq<HistoryRow>)
    ensures forall h :: h in r <==> h in hs && h.productId == productId
    ensures |r| <= |hs|
  {
    if hs == [] then []
    else (if hs[0].productId == productId then [hs[0]] else []) + HistoryOf(hs[1..], productId)
  }

  /** Appending a row extends the history of its own product only, at the end. */
  lemma {:induction false} HistoryOfAppend(hs: seq<HistoryRow>, h: HistoryRow, productId: nat)
    ensures HistoryOf(hs + [h], productId) == HistoryOf(hs, productId) + (if h.productId == productId then [h] else [])
  {
    if hs != [] {
      HistoryOfAppend(hs[1..], h, productId);
      assert (hs + [h])[1..] == hs[1..] + [h];
    }
  }

  /** Rows that never mention a product give it no history. */
  lemma {:induction false} UnusedIdHasNoHistory(hs: seq<HistoryRow>, productId: nat)
    requires forall h :: h in hs ==> h.productId != productId
    ensures HistoryOf(hs, productId) == []
  {
    if hs != [] {
      assert hs[0] in hs;
      assert forall h :: h in hs[1..] ==> h in hs;
      UnusedIdHasNoHistory(hs[1..], productId);
    }
  }

  ghost predicate SortedByTime(hs: seq<HistoryRow>) {
    forall i, j :: 0 <= i < j < |hs| ==> hs[i].timestamp <= hs[j].timestamp
  }

  /** A sorted list with a row in front that is no later than any of its rows is sorted. */
  lemma SortedCons(x: HistoryRow, rest: seq<HistoryRow>)
    requires SortedByTime(rest)
    requires forall y :: y in rest ==> x.timestamp <= y.timestamp
    ensures SortedByTime([x] + rest)
  {
    var r := [x] + rest;
    forall i, j | 0 <= i < j < |r| ensures r[i].timestamp <= r[j].timestamp {
      assert r[j] == rest[j - 1] && rest[j - 1] in rest;
      if i > 0 {
        assert r[i] == rest[i - 1];
      }
    }
  }

  /** The first row of a sorted list is no later than any row after it. */
  lemma SortedHead(hs: seq<HistoryRow>)
    requires SortedByTime(hs) && hs != []
    ensures forall y :: y in hs[1..] ==> hs[0].timestamp <= y.timestamp
  {
    forall y | y in hs[1..] ensures hs[0].timestamp <= y.timestamp {
      var k :| 0 <= k < |hs[1..]| && hs[1..][k] == y;
      assert hs[k + 1] == y;
    }
  }

  function InsertByTime(h: HistoryRow, hs: seq<HistoryRow>): (r: seq<HistoryRow>)
    requires SortedByTime(hs)
    ensures SortedByTime(r)
    ensures multiset(r) == multiset(hs) + multiset{h}
    ensures forall x :: x in r <==> x == h || x in hs
  {
    if hs == [] then [h]
    else if h.timestamp <= hs[0].timestamp then
      SortedHead(hs);
      assert hs == [hs[0]] + hs[1..];
      SortedCons(h, hs);
      [h] + hs
    else
      var rest := InsertByTime(h, hs[1..]);
      SortedHead(hs);
      SortedCons(hs[0], rest);
      assert hs == [hs[0]] + hs[1..];
      [hs[0]] + rest
  }

  /** The rows ordered by ascending timestamp (`ORDER BY timestamp`). */
  function SortByTime(hs: seq<HistoryRow>): (r: seq<HistoryRow>)
    ensures SortedByTime(r)
    ensures multiset(r) == multiset(hs)
  {
    if hs == [] then []
    else
      assert hs == [hs[0]] + hs[1..];
      InsertByTime(hs[0], SortByTime(hs[1..]))
  }

  /**
    `getPriceHistory(productId)`: exactly the history rows of that product,
    each as often as it is stored, in ascending timestamp order.
  */
  function GetPriceHistory(s: Store, productId: nat): (r: seq<HistoryRow>)
    ensures SortedByTime(r)
    ensures multiset(r) == multiset(HistoryOf(s.history, productId))
    ensures forall h :: h in r <==> h in s.history && h.productId == productId
  {
    var r := SortByTime(HistoryOf(s.history, productId));
    assert forall h :: h in r <==> h in multiset(r);
    r
  }

  /** A product id nobody has created has an empty history, not an error. */
  lemma UnknownProductHasNoHistory(s: Store, productId: nat)
    requires Valid(s)
    requires productId !in ProductIds(s.products)
    ensures GetPriceHistory(s, productId) == []
  {
  }

  // ---------------------------------------------------------------------------
  // Deleting a product
  // ---------------------------------------------------------------------------

  function RemoveProduct(ps: seq<Product>, id: nat): (r: seq<Product>)
    ensures forall p :: p in r <==> p in ps && p.id != id
    ensures |r| <= |ps|
    ensures id !in ProductIds(ps) ==> r == ps
  {
    if ps == [] then []
    else
      assert ps == [ps[0]] + ps[1..];
      (if ps[0].id == id then [] else [ps[0]]) + RemoveProduct(ps[1..], id)
  }

  function RemoveHistoryOf(hs: seq<HistoryRow>, productId: nat): (r: seq<HistoryRow>)
    ensures forall h :: h in r <==> h in hs && h.productId != productId
    ensures |r| <= |hs|
    ensures (forall h :: h in hs ==> h.productId != productId) ==> r == hs
  {
    if hs == [] then []
    else
      assert hs == [hs[0]] + hs[1..];
      (if hs[0].productId == productId then [] else [hs[0]]) + RemoveHistoryOf(hs[1..], productId)
  }

  /** A table with distinct ids, taken apart at its first row. */
  lemma DistinctProductIdsCons(p: Product, rest: seq<Product>)
    ensures DistinctProductIds([p] + rest) <==> p.id !in ProductIds(rest) && DistinctProductIds(rest)
  {
    var ps := [p] + rest;
    if DistinctProductIds(ps) {
      forall i, j | 0 <= i < j < |rest| ensures rest[i].id != rest[j].id {
        assert rest[i] == ps[i + 1] && rest[j] == ps[j + 1];
      }
      forall k | 0 <= k < |rest| ensures rest[k].id != p.id {
        assert ps[0] == p && ps[k + 1] == rest[k];
      }
    }
    if p.id !in ProductIds(rest) && DistinctProductIds(rest) {
      forall i, j | 0 <= i < j < |ps| ensures ps[i].id != ps[j].id {
        assert ps[j] == rest[j - 1] && rest[j - 1] in rest;
        if i > 0 {
          assert ps[i] == rest[i - 1];
        }
      }
    }
  }

  lemma DistinctHistoryIdsCons(h: HistoryRow, rest: seq<HistoryRow>)
    ensures DistinctHistoryIds([h] + rest) <==> h.id !in HistoryIds(rest) && DistinctHistoryIds(rest)
  {
    var hs := [h] + rest;
    if DistinctHistoryIds(hs) {
      forall i, j | 0 <= i < j < |rest| ensures rest[i].id != rest[j].id {
        assert rest[i] == hs[i + 1] && rest[j] == hs[j + 1];
      }
      forall k | 0 <= k < |rest| ensures rest[k].id != h.id {
        assert hs[0] == h && hs[k + 1] == rest[k];
      }
    }
    if h.id !in HistoryIds(rest) && DistinctHistoryIds(rest) {
      forall i, j | 0 <= i < j < |hs| ensures hs[i].id != hs[j].id {
        assert hs[j] == rest[j - 1] && rest[j - 1] in rest;
        if i > 0 {
          assert hs[i] == rest[i - 1];
        }
      }
    }
  }

  lemma {:induction false} RemoveProductKeepsIdsDistinct(ps: seq<Product>, id: nat)
    requires DistinctProductIds(ps)
    ensures DistinctProductIds(RemoveProduct(ps, id))
  {
    if ps != [] {
      assert ps == [ps[0]] + ps[1..];
      DistinctProductIdsCons(ps[0], ps[1..]);
      RemoveProductKeepsIdsDistinct(ps[1..], id);
      var rest := RemoveProduct(ps[1..], id);
      if ps[0].id != id {
        assert ProductIds(rest) <= ProductIds(ps[1..]);
        DistinctProductIdsCons(ps[0], rest);
      }
    }
  }

  lemma {:induction false} RemoveHistoryKeepsIdsDistinct(hs: seq<HistoryRow>, productId: nat)
    requires DistinctHistoryIds(hs)
    ensures DistinctHistoryIds(RemoveHistoryOf(hs, productId))
  {
    if hs != [] {
      assert hs == [hs[0]] + hs[1..];
      DistinctHistoryIdsCons(hs[0], hs[1..]);
      RemoveHistoryKeepsIdsDistinct(hs[1..], productId);
      var rest := RemoveHistoryOf(hs[1..], productId);
      if hs[0].productId != productId {
        assert HistoryIds(rest) <= HistoryIds(hs[1..]);
        DistinctHistoryIdsCons(hs[0], rest);
      }
    }
  }

  /**
    `deleteProduct(id)` as written: the product row is deleted first, and the
    foreign key from `price_history` rejects that statement while any history
    row still references the product, so nothing is deleted. Only a product
    without history is removed (its history delete then has nothing to do).
  */
  function DeleteProductAsWritten(s: Store, id: nat): (r: Result<Store, StorageError>)
    requires Valid(s)
    ensures r.Failure? <==> exists h :: h in s.history && h.productId == id
    ensures r.Failure? ==> r.error == ProductStillReferenced
    ensures r.Success? ==> r.value.history == s.history
    ensures r.Success? ==> forall p :: p in r.value.products <==> p in s.products && p.id != id
    ensures r.Success? ==> Valid(r.value)
  {
    if exists h :: h in s.history && h.productId == id then Failure(ProductStillReferenced)
    else
      var afterProducts := s.(products := RemoveProduct(s.products, id));
      var r := afterProducts.(history := RemoveHistoryOf(afterProducts.history, id));
      RemoveProductKeepsIdsDistinct(s.products, id);
      assert forall h :: h in r.history ==> h.productId in ProductIds(r.products) by {
        forall h | h in r.history ensures h.productId in ProductIds(r.products) {
          var p :| p in s.products && p.id == h.productId;
          assert p in r.products;
        }
      }
      Success(r)
  }

  /**
    `deleteProduct(id)` with its two statements in the order the foreign key
    allows (history rows first): afterwards neither the product nor any of
    its history remains, every other row is kept, and the database stays
    consistent.
  */
  function DeleteProduct(s: Store, id: nat): (r: Store)
    requires Valid(s)
    ensures Valid(r)
    ensures id !in ProductIds(r.products)
    ensures forall p :: p in r.products <==> p in s.products && p.id != id
    ensures forall h :: h in r.history <==> h in s.history && h.productId != id
  {
    var afterHistory := s.(history := RemoveHistoryOf(s.history, id));
    var r := afterHistory.(products := RemoveProduct(afterHistory.products, id));
    RemoveProductKeepsIdsDistinct(s.products, id);
    RemoveHistoryKeepsIdsDistinct(s.history, id);
    assert forall h :: h in r.history ==> h.productId in ProductIds(r.products) by {
      forall h | h in r.history ensures h.productId in ProductIds(r.products) {
        var p :| p in s.products && p.id == h.productId;
        assert p in r.products;
      }
    }
    r
  }

  /** After deleting a product, its history reads as empty and the product is gone. */
  lemma DeletedProductLeavesNothing(s: Store, id: nat)
    requires Valid(s)
    ensures GetProduct(DeleteProduct(s, id), id).None?
    ensures GetPriceHistory(DeleteProduct(s, id), id) == []
  {
    UnknownProductHasNoHistory(DeleteProduct(s, id), id);
  }
}

=== FILE: text.dfy ===
/**
  The few ECMAScript string operations the scraper relies on:
  `String.prototype.trim`, `replace(/[^0-9]/g, '')`, `parseInt` of a digit
  string, and `String.prototype.includes`.
*/
module Text {

  /** The characters `trim` removes: ECMAScript WhiteSpace and LineTerminator code points. */
  predicate IsJsSpace(c: char) {
    var n := c as int;
    || n == 0x09 || n == 0x0A || n == 0x0B || n == 0x0C || n == 0x0D || n == 0x20
    || n == 0xA0 || n == 0x1680 || (0x2000 <= n <= 0x200A)
    || n == 0x2028 || n == 0x2029 || n == 0x202F || n == 0x205F || n == 0x3000 || n == 0xFEFF
  }

  predicate AllSpace(s: string) {
    forall k :: 0 <= k < |s| ==> IsJsSpace(s[k])
  }

  /** Number of whitespace characters at the start of `s`. */
  function LeadingSpaces(s: string): (n: nat)
    ensures n <= |s|
    ensures AllSpace(s[..n])
    ensures n < |s| ==> !IsJsSpace(s[n])
  {
    if |s| > 0 && IsJsSpace(s[0]) then 1 + LeadingSpaces(s[1..]) else 0
  }

  /** Number of whitespace characters at the end of `s`. */
  function TrailingSpaces(s: string): (n: nat)
    ensures n <= |s|
    ensures AllSpace(s[|s| - n..])
    ensures n < |s| ==> !IsJsSpace(s[|s| - n - 1])
  {
    if |s| > 0 && IsJsSpace(s[|s| - 1]) then 1 + TrailingSpaces(s[..|s| - 1]) else 0
  }

  /**
    `trim`: the unique infix of `s` obtained by removing whitespace only,
    which neither starts nor ends with whitespace.
  */
  function Trim(s: string): (r: string)
    ensures r == [] <==> AllSpace(s)
    ensures r != [] ==> !IsJsSpace(r[0]) && !IsJsSpace(r[|r| - 1])
    ensures exists i, j :: 0 <= i <= j <= |s| && r == s[i..j] && AllSpace(s[..i]) && AllSpace(s[j..])
  {
    var a := LeadingSpaces(s);
    if a == |s| then
      assert s[..a] == s;
      assert s[a..a] == [] && s[a..] == [];
      []
    else
      var b := |s| - TrailingSpaces(s);
      assert a < b;
      var r := s[a..b];
      assert r[0] == s[a] && r[|r| - 1] == s[b - 1];
      assert !AllSpace(s) by {
        assert !IsJsSpace(s[a]);
      }
      r
  }

  lemma TrimOfTrimmed(s: string)
    requires s == [] || (!IsJsSpace(s[0]) && !IsJsSpace(s[|s| - 1]))
    ensures Trim(s) == s
  {
  }

  /** Trimming twice is trimming once. */
  lemma TrimIdempotent(s: string)
    ensures Trim(Trim(s)) == Trim(s)
  {
    TrimOfTrimmed(Trim(s));
  }

  predicate IsDigit(c: char) {
    '0' <= c <= '9'
  }

  /** `replace(/[^0-9]/g, '')`: the ASCII digits of `s`, in order. */
  function Digits(s: string): (r: string)
    ensures |r| <= |s|
    ensures forall k :: 0 <= k < |r| ==> IsDigit(r[k])
  {
    if s == [] then []
    else if IsDigit(s[0]) then [s[0]] + Digits(s[1..])
    else Digits(s[1..])
  }

  lemma {:induction false} DigitsAppend(a: string, b: string)
    ensures Digits(a + b) == Digits(a) + Digits(b)
  {
    if a == [] {
      assert a + b == b;
    } else {
      assert (a + b)[1..] == a[1..] + b;
      DigitsAppend(a[1..], b);
    }
  }

  /** One character: a digit is kept, anything else dropped. With `DigitsAppend` this fixes `Digits` on every string. */
  lemma DigitsOfChar(c: char)
    ensures Digits([c]) == if IsDigit(c) then [c] else []
  {
    assert [c][1..] == [];
  }

  /** Every digit of `s` is kept, and nothing else. */
  lemma {:induction false} DigitsKeepsDigits(s: string)
    ensures forall c :: c in Digits(s) <==> c in s && IsDigit(c)
  {
    if s != [] {
      DigitsKeepsDigits(s[1..]);
      assert s == [s[0]] + s[1..];
    }
  }

  lemma {:induction false} DigitsOfSpaces(s: string)
    requires AllSpace(s)
    ensures Digits(s) == []
  {
    if s != [] {
      assert !IsDigit(s[0]) by { assert IsJsSpace(s[0]); }
      DigitsOfSpaces(s[1..]);
    }
  }

  /** Trimming before stripping non-digits changes nothing: whitespace is never a digit. */
  lemma DigitsIgnoreTrim(s: string)
    ensures Digits(Trim(s)) == Digits(s)
  {
    var i, j :| 0 <= i <= j <= |s| && Trim(s) == s[i..j] && AllSpace(s[..i]) && AllSpace(s[j..]);
    assert s == s[..i] + s[i..j] + s[j..];
    DigitsAppend(s[..i] + s[i..j], s[j..]);
    DigitsAppend(s[..i], s[i..j]);
    DigitsOfSpaces(s[..i]);
    DigitsOfSpaces(s[j..]);
  }

  function DigitValue(c: char): (v: nat)
    requires IsDigit(c)
    ensures v < 10
  {
    c as int - '0' as int
  }

  function Pow10(n: nat): (r: nat)
    ensures r >= 1
  {
    if n == 0 then 1 else 10 * Pow10(n - 1)
  }

  /**
    The decimal value of a digit string, as `parseInt(ds, 10)` reads it
    (without its float rounding): below 10^|ds|, and at least 10^(|ds|-1)
    when the first digit is not '0'.
  */
  function DecimalValue(ds: string): (v: nat)
    requires forall k :: 0 <= k < |ds| ==> IsDigit(ds[k])
    ensures v < Pow10(|ds|)
    ensures ds != [] && ds[0] != '0' ==> Pow10(|ds| - 1) <= v
  {
    if ds == [] then 0
    else 10 * DecimalValue(ds[..|ds| - 1]) + DigitValue(ds[|ds| - 1])
  }

  /** A digit string reads as zero exactly when every digit is '0'. */
  lemma {:induction false} DecimalValueZero(ds: string)
    requires forall k :: 0 <= k < |ds| ==> IsDigit(ds[k])
    ensures DecimalValue(ds) == 0 <==> forall k :: 0 <= k < |ds| ==> ds[k] == '0'
  {
    if ds != [] {
      var init := ds[..|ds| - 1];
      DecimalValueZero(init);
      assert forall k :: 0 <= k < |init| ==> init[k] == ds[k];
    }
  }

  /** A leading '0' does not change the value read: `parseInt` is decimal, never octal. */
  lemma {:induction false} DecimalValueLeadingZero(ds: string)
    requires forall k :: 0 <= k < |ds| ==> IsDigit(ds[k])
    ensures DecimalValue(['0'] + ds) == DecimalValue(ds)
  {
    var z := ['0'] + ds;
    if ds != [] {
      assert z[..|z| - 1] == ['0'] + ds[..|ds| - 1];
      DecimalValueLeadingZero(ds[..|ds| - 1]);
    } else {
      assert z[..|z| - 1] == [];
    }
  }

  /** `word` occurs in `s` starting at position `i`. */
  predicate OccursAt(s: string, word: string, i: int) {
    0 <= i && i + |word| <= |s| && s[i..i + |word|] == word
  }

  /** `s.includes(word)`: case-sensitive substring test. */
  predicate Contains(s: string, word: string): (b: bool)
    ensures b ==> |word| <= |s|
    ensures word == [] ==> b
    ensures OccursAt(s, word, 0) ==> b
  {
    assert word == [] ==> OccursAt(s, word, 0);
    exists i | 0 <= i <= |s| :: OccursAt(s, word, i)
  }

  /** A word whose first character never occurs in `s` does not occur in `s`: `includes` compares characters exactly. */
  lemma MissingFirstCharNotContained(s: string, word: string)
    requires word != [] && word[0] !in s
    ensures !Contains(s, word)
  {
  }
}

=== FILE: wrappers.dfy ===
/** Failure-compatible wrappers shared by every module of the model. */
module Wrappers {

  /** A value that may be missing (JavaScript `undefined`, or SQL `NULL` in a nullable column). */
  datatype Option<+T> = None | Some(value: T)

  /** The outcome of an operation that either produces a value or fails with an error. */
  datatype Result<+T, +E> = Success(value: T) | Failure(error: E) {

    predicate IsFailure() {
      Failure?
    }

    function PropagateFailure<U>(): Result<U, E>
      requires Failure?
    {
      Failure(error)
    }

    function Extract(): T
      requires Success?
    {
      value
    }
  }
}
